=== FILE: README.md ===
# Tracer loop model

A Dafny model of the heart of the APM agent's `Tracer` (`tracer.go`). The
model covers:

- the single goroutine loop that owns the trace and metrics ring buffers;
- the streaming request to the APM server, and its compressed request buffer;
- the tracer's counters;
- the runtime configuration;
- the metrics timer.

Each pass of the Go `select` loop is the pure function `Loop.Step`. It takes
the loop's state and one input, and returns the next state plus the effects
the iteration had outside the loop. `Step` runs the `Flush` arm with the
correction described under "## Findings": a caller acknowledged at once is
forgotten. The `Flush` arm exactly as the Go tracer writes it is
`Loop.ForceFlushArmAsWritten`. The invariant `LoopState.Inv` and the theorems
built on it (`LoopLemmas.StepInv`, `Traces.RunInv`, `Traces.SingleInFlight`,
`Traces.FromInitial`) are therefore about the corrected loop. With the arm as
written, `Inv` can fail (`FlushFinding.FlushAckedTwiceAsWritten`).

The inputs are:

- closing;
- a configuration command;
- an instrumentation event;
- the request timer or the metrics timer firing;
- a `SendMetrics` or `Flush` caller;
- the end of a gathering round;
- a read from the transport;
- the outcome of a request.

The effects are:

- starting a send with a grace period;
- starting a gathering round;
- answering a read;
- acknowledging a `Flush` or `SendMetrics` caller.

Modules:

- `Basics`: `Option` and `Result`.
- `RingBuffer`: a ring buffer as a FIFO of tagged blocks, with its byte occupancy and eviction on insertion.
- `Counters`: `TracerStats`. It covers the eviction callback, accumulation, and the fold of the loop-local counters into the shared ones.
- `Settings`: `tracerConfig` and the configuration commands, including gatherer registration and deregistration.
- `MetricsClock`: the metrics timer, and its rearm when the interval changes.
- `Options`: `options.init`, with its continue-on-error defaulting.
- `LoopState`: the loop's local variables, its inputs and effects, and the loop invariant `Inv`.
- `ModelWriter`: writing events into the trace buffer and metricsets into the metrics buffer.
- `RequestDrain`: the drain loop that moves buffered blocks into the request.
- `Loop`: the `case` arms, the common tail of an iteration, and `Step`.
- `LoopLemmas`: `Step` preserves `Inv`.
- `StepLemmas`: what one iteration promises, input by input.
- `Traces`: runs of many iterations. The main result is the single-request-in-flight theorem.
- `FlushFinding`: the double acknowledgement of an early-answered `Flush`.

## Model

| member | source | states |
|---|---|---|
| Counters.Evicted | tracer.go:573-582 | An evicted error, span or transaction block raises exactly its own dropped counter by one. Any other tag leaves the counters unchanged, and no sent counter or send-error counter moves. |
| Counters.EvictedAllCounts | tracer.go:573-582 | After a run of evictions, each category's dropped counter has risen by the number of evicted blocks with that tag, and nothing else has moved. |
| Counters.Fold | tracer.go:746-751 | After the fold the local counters are zero and the shared ones are the old shared counters plus the local ones. No shared counter decreases. |
| Settings.Apply | tracer.go:362-441 | Each setter changes only its own field. Registering appends the gatherer at the end and keeps the earlier ones in order. Deregistering removes the gatherer and keeps every other one; on a duplicate-free list this is exactly the Go splice (`Settings.RemoveAt`). The initial command installs the interval, duration, size, sanitized field names and disabled metrics from the options, context 3/3 and the built-in gatherer only. It installs the default logger only when there is one. Only `SetMetricsInterval` and the initial command change the interval. |
| Settings.RemoveAt | tracer.go:428-435 | With distinct gatherers, deregistering the one at index i gives exactly the list without index i. |
| Settings.RegisterThenDeregister | tracer.go:421-441 | Registering a fresh gatherer and then calling its deregistration function gives back the original configuration. |
| Settings.RemoveIdempotent | tracer.go:436-440 | Deregistering twice has the same effect as deregistering once, so the `sync.Once` guard is not observable. |
| Settings.ApplyKeepsDistinct | tracer.go:421-441 | Registering fresh gatherers and deregistering keep the gatherer list free of duplicates. |
| MetricsClock.Rearm | tracer.go:597-622 | While a gathering round runs, or when the interval is unchanged, the timer is untouched. A non-positive interval stops it and forgets the start. A positive interval keeps the recorded start (or takes now) and arms the timer to fire at the later of now and start plus the new interval. A consistent clock stays consistent. |
| Options.Init | tracer.go:85-176 | Returns an error exactly when some parser failed and errors are not tolerated. That error is the head of the error list, which `Options.ErrorsShape` identifies as the first failing parser's error. Otherwise the errors are logged in parser order. Every option is the parsed value, or its default when parsing failed. The pattern lists and the service name, version and environment are taken as read. |
| Options.ErrorsShape | tracer.go:85-152 | The error list is empty exactly when every parser succeeded. For each of the eleven parsers: if it failed and every parser read before it succeeded, its error is the head of the list. |
| RequestDrain.Drain | tracer.go:779-810 | The drain takes blocks from the front of both buffers. It takes no trace block while a metrics block remains. It ends at the size ceiling or when both buffers are exhausted, and takes nothing when the ceiling is already reached. `RequestDrain.DrainBelowCeiling` gives the converse. |
| RequestDrain.DrainBelowCeiling | tracer.go:780-810 | Every block the drain took was taken while the request was still below the ceiling. This counts the bytes read and pending, plus the blocks taken before it (metrics blocks first, then trace blocks). So the drain stops as soon as the ceiling is reached. |
| RequestDrain.DrainCounts | tracer.go:781-806 | Each category's per-request counter rises by the number of drained trace blocks with that tag. The metricset counter rises by the number of metrics blocks drained. |
| RequestDrain.DrainBytes | tracer.go:780-809 | The pending request bytes rise by the drained blocks' sizes plus one newline each. |
| RequestDrain.DrainFlags | tracer.go:781-809 | The request is marked for closing exactly when it already was, or when a metricset was drained while a `SendMetrics` caller waits. The compressor stays flushed only if nothing was drained. No other request field changes. |
| Loop.DrainPhaseProgress | tracer.go:779-814 | The drain phase leaves a suffix of each buffer and empties the metrics buffer before touching trace blocks. A request that reached the ceiling is marked for closing, and a request not marked for closing has emptied both buffers. |
| Loop.DrainPhaseCeiling | tracer.go:779-814 | Each block the drain phase moved into the request was taken while the request, with the blocks taken before it, was below the configured request size. |
| ModelWriter.WriteEvent | tracer.go:623-633 | An event larger than the whole buffer leaves the buffer and counters unchanged. Otherwise the k oldest blocks are evicted and the event becomes the newest block. Each evicted block counts as dropped in its category and no sent or error counter moves. The buffer stays within capacity. |
| ModelWriter.WriteMetrics | tracer.go:648-655 | Only the metrics buffer changes. It keeps its capacity, stays within it, and holds only metricset blocks. |
| ModelWriter.WriteMetricsSuffix | tracer.go:649 | The gathered metricsets enter the metrics buffer in order. Afterwards the buffer is a suffix of the old blocks followed by the metricset blocks that fit at all: only the oldest entries are evicted, and oversized metricsets are skipped. |
| ModelWriter.WriteMetricsNewest | tracer.go:649 | When the last gathered metricset fits, it is the newest block of the metrics buffer afterwards. |
| Loop.ConfigArm | tracer.go:597-622 | A command changes the configuration as `Settings.Apply` says and leaves the rest of the loop alone. The metrics timer is touched only when the interval changed outside a gathering round. Commands other than `SetMetricsInterval` and the initial command never touch it. After a change to a positive interval the timer fires one interval after the recorded start (or after now when none is recorded), or at once if that moment has passed. The loop invariant is kept. |
| Loop.ForceSendMetricsArm | tracer.go:640-647 | The caller becomes the metrics waiter, replacing any earlier one. A running metrics timer is stopped, and nothing else changes. |
| Loop.GatheredArm | tracer.go:648-655 | The gathering round ends and a flush is requested. The metrics buffer is a suffix of the old blocks followed by the gathered metricsets that fit, in order. With a positive interval the timer is armed afresh from now; otherwise the clock is unchanged. The trace buffer, configuration and counters are unchanged. |
| Loop.ForceFlushArmAsWritten | tracer.go:656-673 | As the Go tracer writes it: the arm takes the same branch as the corrected one, and it agrees with it when it reaches the tail. On the early acknowledgement it leaves the caller recorded as the flush waiter. |
| Loop.Outcome | tracer.go:675-692 | A delivered request contributes its per-category counts as sent counters. A failed one contributes exactly one send error and nothing else. |
| Loop.ResultArm | tracer.go:675-743 | The outcome is added to the shared counters, and the local counters are zero. The grace period becomes -1 on success and advances on failure. The flush waiter is acknowledged and cleared. The metrics waiter is acknowledged and cleared only when the request carried a metricset. Every per-request field and the request timer are reset, and the buffers, configuration and metrics clock are unchanged. |
| Loop.CompressPhase | tracer.go:815-824 | Afterwards a request marked for closing has its compressor closed, and closing it appends the stream trailer to the pending bytes; nothing else adds bytes. A flush requested before the phase has happened, or the compressor is closed. A flush request still pending afterwards is already satisfied by a flushed or closed compressor. Nothing outside the compressor flags, the flush request and the pending count changes. |
| Loop.CloseAnswersRead | tracer.go:815-838 | When the compressor closes while a read is outstanding, that read is answered in the same iteration with at least one byte (for a non-empty read). A read large enough for everything pending receives all of it, trailer included, with end-of-stream. |
| Loop.ReadPhase | tracer.go:826-840 | A read is answered exactly when one is outstanding and there is pending data past the 2-byte compressed header; otherwise nothing changes. The answer is the smaller of the read size and the pending bytes. It is end-of-stream exactly when the request is marked for closing and nothing is left. No bytes are lost or created. |
| LoopState.Initial | tracer.go:515-590 | The loop's starting state satisfies the loop invariant. |
| LoopLemmas.StepInv | tracer.go:590-842 | Every enabled input preserves the loop invariant, in the loop with the corrected `Flush` arm. The invariant says that both buffers fit their capacity and the local counters are folded. The metrics timer runs exactly when a start is recorded, and never while gathering. An idle request is fully reset, including its timer. A closed compressor belongs to a request marked for closing, and a flush waiter exists only while a request is open. |
| LoopLemmas.TailInv | tracer.go:746-841 | The common tail of an iteration re-establishes the invariant from the arms' intermediate condition. |
| StepLemmas.StepStopped | tracer.go:593-596 | Once closed the loop does nothing, and it is stopped exactly when it was already stopped or the input was closing. |
| StepLemmas.StepInFlight | tracer.go:762-777 | A send starts only when no request was open, or when the open one reported its result in this very iteration. A request is open afterwards exactly when the old one is still unanswered or a new one was started. |
| StepLemmas.StepResultStats | tracer.go:675-713 | After a request result the shared counters are the old ones plus the outcome, and the grace period is reset on success or advanced on failure. |
| StepLemmas.StepResultAcks | tracer.go:714-722 | After a request result the flush waiter is acknowledged and released. The metrics waiter is acknowledged and released exactly when the request carried a metricset. |
| StepLemmas.StepResultNext | tracer.go:723-777 | After a request result with both buffers empty, the request is fully reset and no send starts. Otherwise the next request is opened at once with the new grace period. |
| StepLemmas.StepForceFlush | tracer.go:656-673 | A `Flush` with no open request and nothing buffered is acknowledged at once, and nothing else happens. Otherwise the caller waits and the request is open, marked for closing and closed in the compressor, with a new send when none was open. |
| StepLemmas.StepRequestTimer | tracer.go:634-636 | The request timer closes the open request and its compressor, and the timer stays stopped. |
| StepLemmas.StepIngest | tracer.go:623-633 | An event is refused, with the counters unchanged, or it evicts the k oldest blocks, each counted as dropped in its category. No other counter moves. |
| StepLemmas.StepIngestError | tracer.go:629-633 | After an error event, an open request has its compressor flushed or closed, so the error goes out promptly. |
| StepLemmas.StepStatsGrow | tracer.go:746-751 | The shared counters never decrease. |
| StepLemmas.StepGather | tracer.go:753-760 | A gathering round starts only when none is running, only on the metrics timer or a `SendMetrics` call, and with the configured gatherers and disabled metrics. |
| StepLemmas.StepForceSendMetrics | tracer.go:640-647 | `SendMetrics` makes the caller the metrics waiter and stops the metrics timer. A round is running afterwards, started by this call exactly when none was running before. |
| StepLemmas.StepFlushAck | tracer.go:656-722 | In the corrected loop, a `Flush` caller is acknowledged only by its own call or by a request result, and is never still recorded as the waiter afterwards. |
| Traces.RunInv | tracer.go:590-842 | Any feasible run of iterations of the corrected loop keeps the loop invariant. |
| Traces.SingleInFlight | tracer.go:762-777 | Along any feasible run of the corrected loop, the open requests at the start plus the sends started equal the results delivered plus the open requests at the end. |
| Traces.FromInitial | tracer.go:515-842 | From the initial state of the corrected loop, the invariant holds throughout, and sends started never exceed the results delivered by more than one. |
| FlushFinding.FlushAckedTwiceAsWritten | tracer.go:669-672 | With the arm as written, an early-acknowledged `Flush` caller stays the waiter. A later event opens a request, and that request's result acknowledges the same caller a second time. |
| FlushFinding.FlushAckedOnce | tracer.go:669-672 | With the corrected arm, the invariant holds after the early acknowledgement, and the later request result acknowledges nobody. |
| FlushFinding.FlushAckedBeforeQueuedSent | tracer.go:656-722 | A `Flush` that arrives after the open request was closed (by its timer or at the size ceiling) does not wait for the events still buffered. The drain is skipped for a closed request (tracer.go:779), so the caller waits on that request with its contents unchanged. Its result acknowledges the caller in the same iteration that starts the request carrying the buffered events. This holds for the arm as written and as corrected. |

Some modelling choices, with the Go behaviour behind them:

- The ring buffer's own code is not part of this model. `RingBuffer.Insert` is written to the behaviour its callers rely on:
  - a block whose footprint exceeds the capacity is refused and nothing is evicted;
  - otherwise the oldest blocks are evicted until the new block fits;
  - `Len() == 0` means no block is buffered.
- Deregistration is modelled as filtering the gatherer list. The Go code splices index i out while ranging over the original slice. With a gatherer that occurs at most once, the two agree (`Settings.RemoveAt`). The Go code guarantees that through a fresh wrapper per registration and `sync.Once` on the deregistration function.
- Blocks of a failed request are counted neither as sent nor as dropped. Only the send-error counter moves.
- The metrics waiter is acknowledged after a failed send as well, whenever the request carried a metricset.
- A second `Flush` or `SendMetrics` caller replaces the earlier waiter.
- Events drained inside the `Flush` arm do not request a compressor flush, even when they are errors.
- The metrics buffer has no eviction callback, so evicted metricsets are not counted anywhere.

## Left out

- Integer widths: the counters (`uint64` in `TracerStats` and the per-request counts), durations (`int64`), sizes and `requestBytesRead` (`int`) are unbounded `nat`/`int`. Wrap-around and overflow are not modelled.
- Settings.Apply: deregistration of a gatherer listed more than once is not modelled as the Go splice, which skips the element shifted into the removed slot and can slice past the end. Registration never creates such duplicates.
- Goroutines, channels, `statsMu`, the atomics and `select` fairness: an iteration takes one input chosen by its caller, and `LoopState.Enabled` says which inputs the loop can receive in a given state.
- Time: the clock is an integer input carried by configuration commands and gathering results. Timers are `Stopped` or `Armed(after)`, and a timer firing is an input.
- The send goroutine, jitter and `nextGracePeriod`: the back-off policy is an uninterpreted parameter of `Step`, and starting a send is an effect.
- zlib and `bytes.Buffer` contents: the request buffer is a count of pending uncompressed-equivalent bytes (metadata plus each block and its newline). Flushing the compressor is a flag that adds no bytes. Closing it adds a fixed trailer of `Loop.ZlibTrailerLen` bytes: the Adler-32 checksum of section 2.2 of RFC 1950. The final deflate block before the checksum is left out.
- RequestDrain.Drain: the size ceiling and the 2-byte header guard are compared against that abstract pending count, not the compressed length, because compression is not modelled.
- RequestDrain.Drain: a failing `WriteBlockTo` (the `continue` without counting) is not modelled; every drained block is assumed to be written.
- Ring buffer internals (`ringbuffer` package): modelled as a FIFO of tagged, sized blocks as described above, because that package is not part of this model.
- Transport, logging and the 404 severity choice: logging has no effect on the state, and the transport appears only as read requests and request results.
- `jsonRequestMetadata`: the metadata is a length fixed per loop.
- The `initial*` environment parsers: `Options.Init` takes each parser's result as input.
- The mutex-guarded setters (`SetSampler`, `SetMaxSpans`, `SetSpanFramesMinDuration`, `SetCaptureHeaders`, `SetCaptureBody`): they do not pass through the loop.
- The caller side of `Flush`, `SendMetrics`, `Close` and `sendConfigCommand` (aborts and closed checks): callers are waiter identities, and an acknowledgement is an effect naming one.
- The gatherers themselves and the metrics they produce: a gathering round is a request effect, and its result is a list of metricset sizes.
- `module/apmgormv2/elasticapm.go`: it is a caller of the tracer, not part of the loop.
- StepLemmas.StepFlushAck: the acknowledgement does not promise that the events queued before the `Flush` call were sent. The Go documentation of `Flush` (tracer.go:337-339) says it waits for the queued events. The loop, however, acknowledges the caller at the result of the request open at the time of the call, and that request may already be closed (`FlushFinding.FlushAckedBeforeQueuedSent`). Neither the Go loop nor this model holds the caller until a later request has carried those events.

## Findings

| source | as written | input that shows it | evidently intended | confidence | as-written member | corrected member |
|---|---|---|---|---|---|---|
| tracer.go:669-672 | When a `Flush` arrives with no open request and empty buffers, the caller is acknowledged at once but `flushed` is not set back to nil. | A `Flush` on an idle, empty tracer, then an event, then that request's result: the result acknowledges the same `flushed` channel a second time. If the caller had aborted and left the one-slot channel full, the loop blocks on that send. | Clear `flushed` after the early acknowledgement, as the request-result arm does, so a caller is acknowledged exactly once. | not executed | Loop.ForceFlushArmAsWritten (shown by FlushFinding.FlushAckedTwiceAsWritten) | Loop.ForceFlushArm (FlushFinding.FlushAckedOnce, LoopLemmas.StepInv) |

=== FILE: basics.dfy ===
/** Small failure-compatible wrappers shared by the tracer model. */
module Basics {

  /** A value that may be absent; stands for Go's nil channels and pointers. */
  datatype Option<+T> = None | Some(value: T)

  /** A computation that either yields a value or reports an error. */
  datatype Result<+T, +E> = Success(value: T) | Failure(error: E)
}

=== FILE: counters.dfy ===
/** TracerStats: the counters the loop accumulates, the eviction callback
    that feeds the dropped counters, and the fold of the loop's local
    counters into the externally visible ones. Counters are unbounded. */
module Counters {
  import opened RingBuffer

  datatype Stats = Stats(
    sendStreamErrors: nat,
    errorsSent: nat,
    errorsDropped: nat,
    transactionsSent: nat,
    transactionsDropped: nat,
    spansSent: nat,
    spansDropped: nat)

  const Zero := Stats(0, 0, 0, 0, 0, 0, 0)

  /** `TracerStats.isZero`. */
  predicate IsZero(s: Stats) { s == Zero }

  /** Tags that have a sent and a dropped counter (metricsets have neither). */
  predicate Counted(t: Tag) { t != MetricsetTag }

  function Dropped(s: Stats, t: Tag): nat {
    match t
    case TransactionTag => s.transactionsDropped
    case SpanTag => s.spansDropped
    case ErrorTag => s.errorsDropped
    case MetricsetTag => 0
  }

  function Sent(s: Stats, t: Tag): nat {
    match t
    case TransactionTag => s.transactionsSent
    case SpanTag => s.spansSent
    case ErrorTag => s.errorsSent
    case MetricsetTag => 0
  }

  /** `TracerStats.accumulate`: counter-wise addition. */
  function Accumulate(a: Stats, b: Stats): (r: Stats)
    ensures forall t :: Sent(r, t) == Sent(a, t) + Sent(b, t)
    ensures forall t :: Dropped(r, t) == Dropped(a, t) + Dropped(b, t)
    ensures r.sendStreamErrors == a.sendStreamErrors + b.sendStreamErrors
  {
    Stats(
      a.sendStreamErrors + b.sendStreamErrors,
      a.errorsSent + b.errorsSent,
      a.errorsDropped + b.errorsDropped,
      a.transactionsSent + b.transactionsSent,
      a.transactionsDropped + b.transactionsDropped,
      a.spansSent + b.spansSent,
      a.spansDropped + b.spansDropped)
  }

  /** Two stats agree on every counter exactly when they are equal. */
  lemma CountersDetermineStats(a: Stats, b: Stats)
    requires forall t :: Sent(a, t) == Sent(b, t) && Dropped(a, t) == Dropped(b, t)
    requires a.sendStreamErrors == b.sendStreamErrors
    ensures a == b
  {
    assert Sent(a, TransactionTag) == Sent(b, TransactionTag) && Dropped(a, TransactionTag) == Dropped(b, TransactionTag);
    assert Sent(a, SpanTag) == Sent(b, SpanTag) && Dropped(a, SpanTag) == Dropped(b, SpanTag);
    assert Sent(a, ErrorTag) == Sent(b, ErrorTag) && Dropped(a, ErrorTag) == Dropped(b, ErrorTag);
  }

  /** Zero is neutral for accumulation. */
  lemma AccumulateZero(a: Stats)
    ensures Accumulate(a, Zero) == a
  {
    CountersDetermineStats(Accumulate(a, Zero), a);
  }

  /** `a` is counter-wise no greater than `b`. */
  predicate AtMost(a: Stats, b: Stats) {
    && a.sendStreamErrors <= b.sendStreamErrors
    && (forall t :: Sent(a, t) <= Sent(b, t))
    && (forall t :: Dropped(a, t) <= Dropped(b, t))
  }

  /** The eviction callback installed on the trace buffer: the dropped
      counter of the evicted block's category goes up by one; a metricset
      tag matches no case and changes nothing. */
  function Evicted(s: Stats, t: Tag): (r: Stats)
    ensures Counted(t) ==> Dropped(r, t) == Dropped(s, t) + 1
    ensures forall u :: u != t ==> Dropped(r, u) == Dropped(s, u)
    ensures forall u :: Sent(r, u) == Sent(s, u)
    ensures r.sendStreamErrors == s.sendStreamErrors
    ensures !Counted(t) ==> r == s
  {
    match t
    case ErrorTag => s.(errorsDropped := s.errorsDropped + 1)
    case SpanTag => s.(spansDropped := s.spansDropped + 1)
    case TransactionTag => s.(transactionsDropped := s.transactionsDropped + 1)
    case MetricsetTag => s
  }

  /** The callback applied to every evicted block, oldest first. */
  function EvictedAll(s: Stats, evicted: seq<Block>): Stats
    decreases |evicted|
  {
    if evicted == [] then s else EvictedAll(Evicted(s, evicted[0].tag), evicted[1..])
  }

  /** Each category's dropped counter rises by the number of evicted blocks
      carrying its tag; nothing else moves. */
  lemma {:induction false} EvictedAllCounts(s: Stats, evicted: seq<Block>)
    ensures forall t :: Counted(t) ==> Dropped(EvictedAll(s, evicted), t) == Dropped(s, t) + CountTag(evicted, t)
    ensures forall t :: Sent(EvictedAll(s, evicted), t) == Sent(s, t)
    ensures EvictedAll(s, evicted).sendStreamErrors == s.sendStreamErrors
    decreases |evicted|
  {
    if evicted != [] {
      EvictedAllCounts(Evicted(s, evicted[0].tag), evicted[1..]);
    }
  }

  /** Shared and local counters after a fold. */
  datatype Folded = Folded(shared: Stats, local: Stats)

  /** The fold at the end of a loop iteration: when the local counters are
      non-zero they are added to the shared ones and reset. */
  function Fold(shared: Stats, local: Stats): (r: Folded)
    ensures r.local == Zero
    ensures r.shared == Accumulate(shared, local)
    ensures AtMost(shared, r.shared)
  {
    if IsZero(local) then
      AccumulateZero(shared);
      Folded(shared, local)
    else
      Folded(Accumulate(shared, local), Zero)
  }
}

=== FILE: drain.dfy ===
/** The drain loop that copies buffered blocks into the open request until
    the request reaches its byte ceiling or the trace buffer runs dry. */
module RequestDrain {
  import opened RingBuffer
  import opened LoopState

  /** Bytes a drained block adds to the request: its payload and the
      newline written after it. */
  function Streamed(bs: seq<Block>): nat {
    Used(bs, 1)
  }

  /** The per-request counter matching a trace block's tag goes up by one. */
  function Bump(c: Counts, t: Tag): (r: Counts)
    ensures t != MetricsetTag ==> CountOf(r, t) == CountOf(c, t) + 1
    ensures forall u :: u != t ==> CountOf(r, u) == CountOf(c, u)
    ensures t == MetricsetTag ==> r == c
  {
    match t
    case TransactionTag => c.(transactions := c.transactions + 1)
    case SpanTag => c.(spans := c.spans + 1)
    case ErrorTag => c.(errors := c.errors + 1)
    case MetricsetTag => c
  }

  /** How many blocks the drain took from each buffer (from the front), and
      the request afterwards. */
  datatype Drained = Drained(tookTrace: nat, tookMetrics: nat, req: Request)

  /** Writing one metrics block into the request. */
  function TakeMetricset(req: Request, b: Block, metricsWaiting: bool): Request {
    req.(counts := req.counts.(metricsets := req.counts.metricsets + 1),
         pending := req.pending + b.size + 1,
         zlibFlushed := false,
         closeRequest := req.closeRequest || metricsWaiting)
  }

  /** Writing one trace block into the request. */
  function TakeTraceBlock(req: Request, b: Block): Request {
    req.(counts := Bump(req.counts, b.tag), pending := req.pending + b.size + 1, zlibFlushed := false)
  }

  /** Blocks are taken while the request is below `limit` bytes (read plus
      pending): a metrics block whenever one is buffered, otherwise the
      oldest trace block, stopping when the trace buffer is empty. Taking a
      metrics block while a `SendMetrics` caller waits closes the request. */
  function Drain(trace: seq<Block>, metrics: seq<Block>, req: Request, limit: int, metricsWaiting: bool): (d: Drained)
    ensures d.tookTrace <= |trace| && d.tookMetrics <= |metrics|
    // metrics are preferred: no trace block is taken while a metrics block remains
    ensures d.tookTrace > 0 ==> d.tookMetrics == |metrics|
    // the loop ends at the ceiling or with nothing left to take
    ensures d.req.bytesRead + d.req.pending >= limit || (d.tookTrace == |trace| && d.tookMetrics == |metrics|)
    ensures req.bytesRead + req.pending >= limit ==> d == Drained(0, 0, req)
    decreases |trace| + |metrics|
  {
    if req.bytesRead + req.pending >= limit then Drained(0, 0, req)
    else if metrics != [] then
      var d := Drain(trace, metrics[1..], TakeMetricset(req, metrics[0], metricsWaiting), limit, metricsWaiting);
      d.(tookMetrics := d.tookMetrics + 1)
    else if trace == [] then Drained(0, 0, req)
    else
      var d := Drain(trace[1..], metrics, TakeTraceBlock(req, trace[0]), limit, metricsWaiting);
      d.(tookTrace := d.tookTrace + 1)
  }

  /** The converse of the ceiling clause of `Drain`: every block was taken
      while the request was still below `limit`, counting the bytes of the
      blocks taken before it (all metrics blocks come first). */
  lemma {:induction false} DrainBelowCeiling(trace: seq<Block>, metrics: seq<Block>, req: Request, limit: int, metricsWaiting: bool)
    ensures var d := Drain(trace, metrics, req, limit, metricsWaiting);
            && (forall j :: 0 <= j < d.tookMetrics ==>
                  req.bytesRead + req.pending + Streamed(metrics[..j]) < limit)
            && (forall j :: 0 <= j < d.tookTrace ==>
                  req.bytesRead + req.pending + Streamed(metrics[..d.tookMetrics]) + Streamed(trace[..j]) < limit)
    decreases |trace| + |metrics|
  {
    if req.bytesRead + req.pending >= limit {
    } else if metrics != [] {
      var req' := TakeMetricset(req, metrics[0], metricsWaiting);
      var d' := Drain(trace, metrics[1..], req', limit, metricsWaiting);
      assert Drain(trace, metrics, req, limit, metricsWaiting) == d'.(tookMetrics := d'.tookMetrics + 1);
      DrainBelowCeiling(trace, metrics[1..], req', limit, metricsWaiting);
      PrefixBelow(metrics, req.bytesRead + req.pending, d'.tookMetrics, limit);
      TakenStreamed(metrics, d'.tookMetrics + 1);
    } else if trace != [] {
      var req' := TakeTraceBlock(req, trace[0]);
      var d' := Drain(trace[1..], metrics, req', limit, metricsWaiting);
      assert Drain(trace, metrics, req, limit, metricsWaiting) == d'.(tookTrace := d'.tookTrace + 1);
      DrainBelowCeiling(trace[1..], metrics, req', limit, metricsWaiting);
      assert metrics[..0] == [];
      PrefixBelow(trace, req.bytesRead + req.pending, d'.tookTrace, limit);
    }
  }

  /** Prefix sums below a bound: if `base` is below `limit`, and so is every
      prefix of the rest after the first block has been added, then so is
      every prefix of `bs` up to one block more. */
  lemma PrefixBelow(bs: seq<Block>, base: int, n: nat, limit: int)
    requires bs != [] && n < |bs| && base < limit
    requires forall j :: 0 <= j < n ==> base + bs[0].size + 1 + Streamed(bs[1..][..j]) < limit
    ensures forall j :: 0 <= j < n + 1 ==> base + Streamed(bs[..j]) < limit
  {
    forall j | 0 <= j < n + 1 ensures base + Streamed(bs[..j]) < limit {
      if j == 0 {
        assert bs[..0] == [];
      } else {
        TakenStreamed(bs, j);
      }
    }
  }

  /** Each category's per-request counter rises by the number of taken
      blocks carrying its tag; the metricset counter by the number of
      metrics blocks taken. */
  ghost predicate CountsAccounted(trace: seq<Block>, req: Request, d: Drained)
    requires d.tookTrace <= |trace|
  {
    && (forall t :: t != MetricsetTag ==>
          CountOf(d.req.counts, t) == CountOf(req.counts, t) + CountTag(trace[..d.tookTrace], t))
    && d.req.counts.metricsets == req.counts.metricsets + d.tookMetrics
  }

  lemma {:induction false} DrainCounts(trace: seq<Block>, metrics: seq<Block>, req: Request, limit: int, metricsWaiting: bool)
    ensures CountsAccounted(trace, req, Drain(trace, metrics, req, limit, metricsWaiting))
    decreases |trace| + |metrics|
  {
    if req.bytesRead + req.pending >= limit {
    } else if metrics != [] {
      var req' := TakeMetricset(req, metrics[0], metricsWaiting);
      var d' := Drain(trace, metrics[1..], req', limit, metricsWaiting);
      assert Drain(trace, metrics, req, limit, metricsWaiting) == d'.(tookMetrics := d'.tookMetrics + 1);
      DrainCounts(trace, metrics[1..], req', limit, metricsWaiting);
      CountsMetricStep(trace, req, req', d');
    } else if trace != [] {
      var req' := TakeTraceBlock(req, trace[0]);
      var d' := Drain(trace[1..], metrics, req', limit, metricsWaiting);
      assert Drain(trace, metrics, req, limit, metricsWaiting) == d'.(tookTrace := d'.tookTrace + 1);
      DrainCounts(trace[1..], metrics, req', limit, metricsWaiting);
      CountsTraceStep(trace, req, req', d');
    }
  }

  lemma CountsMetricStep(trace: seq<Block>, req: Request, req': Request, d': Drained)
    requires req'.counts == req.counts.(metricsets := req.counts.metricsets + 1)
    requires d'.tookTrace <= |trace| && CountsAccounted(trace, req', d')
    ensures CountsAccounted(trace, req, d'.(tookMetrics := d'.tookMetrics + 1))
  {
    forall t | t != MetricsetTag ensures CountOf(req'.counts, t) == CountOf(req.counts, t) {
    }
  }

  lemma CountsTraceStep(trace: seq<Block>, req: Request, req': Request, d': Drained)
    requires trace != [] && req'.counts == Bump(req.counts, trace[0].tag)
    requires d'.tookTrace <= |trace[1..]| && CountsAccounted(trace[1..], req', d')
    ensures CountsAccounted(trace, req, d'.(tookTrace := d'.tookTrace + 1))
  {
    var d := d'.(tookTrace := d'.tookTrace + 1);
    forall t | t != MetricsetTag
      ensures CountOf(d.req.counts, t) == CountOf(req.counts, t) + CountTag(trace[..d.tookTrace], t)
    {
      TakenCount(trace, d.tookTrace, t);
    }
  }

  /** The pending bytes rise by the payloads and newlines of the taken
      blocks. */
  ghost predicate BytesAccounted(trace: seq<Block>, metrics: seq<Block>, req: Request, d: Drained)
    requires d.tookTrace <= |trace| && d.tookMetrics <= |metrics|
  {
    d.req.pending == req.pending + Streamed(trace[..d.tookTrace]) + Streamed(metrics[..d.tookMetrics])
  }

  lemma {:induction false} DrainBytes(trace: seq<Block>, metrics: seq<Block>, req: Request, limit: int, metricsWaiting: bool)
    ensures BytesAccounted(trace, metrics, req, Drain(trace, metrics, req, limit, metricsWaiting))
    decreases |trace| + |metrics|
  {
    if req.bytesRead + req.pending >= limit {
    } else if metrics != [] {
      var req' := TakeMetricset(req, metrics[0], metricsWaiting);
      DrainBytes(trace, metrics[1..], req', limit, metricsWaiting);
      var d' := Drain(trace, metrics[1..], req', limit, metricsWaiting);
      TakenStreamed(metrics, d'.tookMetrics + 1);
    } else if trace != [] {
      var req' := TakeTraceBlock(req, trace[0]);
      DrainBytes(trace[1..], metrics, req', limit, metricsWaiting);
      var d' := Drain(trace[1..], metrics, req', limit, metricsWaiting);
      TakenStreamed(trace, d'.tookTrace + 1);
    }
  }

  /** The request is closed exactly when it already was or a metrics block
      was taken while a `SendMetrics` caller waits; the compressor counts as
      unflushed once anything was written; no other request field moves. */
  lemma {:induction false} DrainFlags(trace: seq<Block>, metrics: seq<Block>, req: Request, limit: int, metricsWaiting: bool)
    ensures var d := Drain(trace, metrics, req, limit, metricsWaiting);
            && d.req.closeRequest == (req.closeRequest || (metricsWaiting && d.tookMetrics > 0))
            && d.req.zlibFlushed == (req.zlibFlushed && d.tookTrace == 0 && d.tookMetrics == 0)
            && d.req.(counts := req.counts, pending := req.pending, closeRequest := req.closeRequest,
                      zlibFlushed := req.zlibFlushed) == req
    decreases |trace| + |metrics|
  {
    if req.bytesRead + req.pending >= limit {
    } else if metrics != [] {
      DrainFlags(trace, metrics[1..], TakeMetricset(req, metrics[0], metricsWaiting), limit, metricsWaiting);
    } else if trace == [] {
    } else {
      DrainFlags(trace[1..], metrics, TakeTraceBlock(req, trace[0]), limit, metricsWaiting);
    }
  }

  /** Taking `k > 0` blocks from the front is taking the first and then
      `k - 1` from the rest. */
  lemma TakenStreamed(bs: seq<Block>, k: nat)
    requires 0 < k <= |bs|
    ensures Streamed(bs[..k]) == bs[0].size + 1 + Streamed(bs[1..][..k - 1])
  {
    assert bs[..k][1..] == bs[1..][..k - 1];
  }

  lemma TakenCount(bs: seq<Block>, k: nat, t: Tag)
    requires 0 < k <= |bs|
    ensures CountTag(bs[..k], t) == (if bs[0].tag == t then 1 else 0) + CountTag(bs[1..][..k - 1], t)
  {
    assert bs[..k][1..] == bs[1..][..k - 1];
  }
}

=== FILE: findings.dfy ===
/** The acknowledgement of a `Flush` call: the early acknowledgement as the
    Go tracer writes it and as corrected, and what the acknowledgement
    does not promise about events still buffered. */
module FlushFinding {
  import opened Basics
  import opened RingBuffer
  import opened LoopState
  import opened ModelWriter
  import opened Loop
  import opened LoopLemmas
  import opened StepLemmas

  /** As written, a `Flush` answered at once stays recorded as the flush
      waiter: the loop leaves its invariant (a waiter with no request in
      flight), and once an event opens a request, that request's result
      acknowledges the same caller a second time. With the caller's
      one-slot reply channel already holding the first acknowledgement (a
      caller that gave up waiting never drains it), that second send
      blocks the loop. */
  lemma FlushAckedTwiceAsWritten(s: State, w: WaiterId, e: Event, ok: bool, nextGracePeriod: int -> int)
    requires Inv(s) && !s.stopped && !s.req.active && s.trace.IsEmpty() && s.metrics.IsEmpty()
    requires Footprint(BlockOf(e), s.trace.headerSize) <= s.trace.capacity
    ensures var d := ForceFlushArmAsWritten(s, w, []);
            && d.Continue? && d.out.effects.flushAck == Some(w)
            && !Inv(d.out.state)
            && var a := Step(d.out.state, Ingest(e), nextGracePeriod);
               && a.state.req.active && !a.state.stopped
               && Step(a.state, RequestResult(ok), nextGracePeriod).effects.flushAck == Some(w)
  {
    var d := ForceFlushArmAsWritten(s, w, []);
    assert WriteEvents(s, []) == s;
    IngestOpens(d.out.state, e, nextGracePeriod);
    ResultAcksFlushWaiter(Step(d.out.state, Ingest(e), nextGracePeriod).state, ok, nextGracePeriod);
  }

  /** Corrected, the caller answered at once is forgotten, so the next
      result acknowledges nobody. */
  lemma FlushAckedOnce(s: State, w: WaiterId, e: Event, ok: bool, nextGracePeriod: int -> int)
    requires Inv(s) && !s.stopped && !s.req.active && s.trace.IsEmpty() && s.metrics.IsEmpty()
    requires Footprint(BlockOf(e), s.trace.headerSize) <= s.trace.capacity
    ensures var d := ForceFlushArm(s, w, []);
            && d.Continue? && d.out.effects.flushAck == Some(w)
            && Inv(d.out.state)
            && var a := Step(d.out.state, Ingest(e), nextGracePeriod);
               && a.state.req.active && !a.state.stopped
               && Step(a.state, RequestResult(ok), nextGracePeriod).effects.flushAck.None?
  {
    var d := ForceFlushArm(s, w, []);
    assert WriteEvents(s, []) == s;
    IngestOpens(d.out.state, e, nextGracePeriod);
    ResultAcksFlushWaiter(Step(d.out.state, Ingest(e), nextGracePeriod).state, ok, nextGracePeriod);
  }

  /** An event that fits into an empty, idle loop opens a request and
      leaves the flush waiter alone. */
  lemma IngestOpens(q: State, e: Event, nextGracePeriod: int -> int)
    requires !q.stopped && !q.req.active
    requires Footprint(BlockOf(e), q.trace.headerSize) <= q.trace.capacity
    ensures var a := Step(q, Ingest(e), nextGracePeriod).state;
            a.req.active && !a.stopped && a.flushWaiter == q.flushWaiter
  {
    var t := IngestArm(q, e);
    IngestStores(q, e);
    assert Step(q, Ingest(e), nextGracePeriod) == Tail(t, NoEffects, false);
    TailOpensIdle(t);
  }

  /** The tail opens an idle request with buffered data, and leaves the
      flush waiter alone. */
  lemma TailOpensIdle(t: State)
    requires !t.req.active && !t.trace.IsEmpty()
    ensures var a := Tail(t, NoEffects, false).state;
            a.req.active && a.stopped == t.stopped && a.flushWaiter == t.flushWaiter
  {
    TailFrame(t, NoEffects, false);
  }

  /** An event that fits is stored, and the arm leaves the request's
      lifecycle and the waiters alone. */
  lemma IngestStores(q: State, e: Event)
    requires Footprint(BlockOf(e), q.trace.headerSize) <= q.trace.capacity
    ensures var t := IngestArm(q, e);
            && !t.trace.IsEmpty() && t.req.active == q.req.active
            && t.stopped == q.stopped && t.flushWaiter == q.flushWaiter
  {
    var w := WriteEvent(q, e);
    assert w.trace.blocks[|w.trace.blocks| - 1] == BlockOf(e);
  }

  /** A request result acknowledges whichever flush waiter is recorded. */
  lemma ResultAcksFlushWaiter(a: State, ok: bool, nextGracePeriod: int -> int)
    requires !a.stopped
    ensures Step(a, RequestResult(ok), nextGracePeriod).effects.flushAck == a.flushWaiter
  {
    var r := ResultArm(a, ok, nextGracePeriod);
    TailFrame(r.state, r.effects, false);
  }

  /** A `Flush` that arrives while the open request is already closed (by
      its timer, or at the size ceiling) does not wait for the events still
      buffered: nothing is drained into the closed request, the caller
      waits on that request alone, and its result acknowledges the caller
      in the same iteration that starts the request carrying those events.
      This holds for the arm as written and as corrected alike. */
  lemma FlushAckedBeforeQueuedSent(s: State, w: WaiterId, ok: bool, nextGracePeriod: int -> int)
    requires Inv(s) && !s.stopped && s.req.active && s.req.closeRequest && s.req.zlibClosed
    requires !s.trace.IsEmpty()
    ensures var a := Step(s, ForceFlush(w, []), nextGracePeriod);
            && a.state.trace == s.trace && a.state.req.counts == s.req.counts
            && a.state.flushWaiter == Some(w) && a.effects.flushAck.None?
            && var o := Step(a.state, RequestResult(ok), nextGracePeriod);
               o.effects.flushAck == Some(w) && o.effects.send.Some?
  {
    FlushOnClosed(s, w, nextGracePeriod);
    ResultReopens(Step(s, ForceFlush(w, []), nextGracePeriod).state, ok, nextGracePeriod);
  }

  /** The `Flush` arm on a request already closed in its compressor: the
      caller waits, and nothing moves into the closed request. */
  lemma FlushOnClosed(s: State, w: WaiterId, nextGracePeriod: int -> int)
    requires Inv(s) && !s.stopped && s.req.active && s.req.closeRequest && s.req.zlibClosed
    ensures var a := Step(s, ForceFlush(w, []), nextGracePeriod);
            && a.state.trace == s.trace && a.state.req.counts == s.req.counts
            && a.state.flushWaiter == Some(w) && a.effects.flushAck.None?
            && Inv(a.state) && a.state.req.active && !a.state.stopped
  {
    var t := s.(flushWaiter := Some(w));
    assert WriteEvents(s, []) == s;
    assert Step(s, ForceFlush(w, []), nextGracePeriod) == Tail(t, NoEffects, false);
    ClosedTailKeeps(t);
    StepInv(s, ForceFlush(w, []), nextGracePeriod);
  }

  /** A request result acknowledges the recorded flush waiter, and buffered
      events start the next request in the same iteration. */
  lemma ResultReopens(a: State, ok: bool, nextGracePeriod: int -> int)
    requires !a.stopped && !a.trace.IsEmpty()
    ensures var o := Step(a, RequestResult(ok), nextGracePeriod);
            o.effects.flushAck == a.flushWaiter && o.effects.send.Some?
  {
    var r := ResultArm(a, ok, nextGracePeriod);
    TailFrame(r.state, r.effects, false);
  }

  /** The tail of an iteration on an open request already closed in its
      compressor moves no block and leaves the waiters alone. */
  lemma ClosedTailKeeps(t: State)
    requires t.req.active && t.req.closeRequest && t.req.zlibClosed
    ensures var a := Tail(t, NoEffects, false);
            && a.state.trace == t.trace && a.state.req.counts == t.req.counts
            && a.state.flushWaiter == t.flushWaiter && a.effects.flushAck.None?
            && a.state.req.active && a.state.stopped == t.stopped
  {
    var o := StartGather(Out(FoldLocal(t), NoEffects), false);
    assert DrainPhase(o.state) == o.state;
    assert CompressPhase(o.state) == o.state;
    TailFrame(t, NoEffects, false);
  }
}


=== FILE: loop.dfy ===
/** One iteration of the tracer loop as a pure step: the `case` arm chosen
    by the input, then the common tail that folds the counters, starts a
    metrics round, opens a request when data is waiting, drains the buffers
    into it, flushes or closes the compressor and answers the transport's
    read. */
module Loop {
  import opened Basics
  import opened RingBuffer
  import opened Counters
  import opened Settings
  import opened MetricsClock
  import opened LoopState
  import opened RequestDrain
  import opened ModelWriter

  /** The state after an iteration, with what it did outside the loop. */
  datatype Out = Out(state: State, effects: Effects)

  /** Bytes of the compressed-stream header below which no read is served. */
  const ZlibHeaderLen := 2

  /** Bytes that closing the compressor appends to the request buffer: the
      Adler-32 checksum that ends a zlib stream (section 2.2 of RFC 1950).
      The final deflate block that precedes it is not counted. */
  const ZlibTrailerLen := 4

  function Min(a: nat, b: nat): nat { if a <= b then a else b }

  // ---------------------------------------------------------------- arms

  /** A configuration command, then the metrics-timer rearm if the
      interval changed. The tail is skipped. */
  function ConfigArm(s: State, cmd: Command, now: int): (r: State)
    ensures r.(cfg := s.cfg, clock := s.clock) == s
    ensures r.cfg == Apply(s.cfg, cmd)
    ensures r.clock == Rearm(s.gathering, s.cfg.metricsInterval, r.cfg.metricsInterval, s.clock, now)
    // only a change of the interval outside a gathering round touches the timer
    ensures s.gathering || r.cfg.metricsInterval == s.cfg.metricsInterval ==> r.clock == s.clock
    ensures !cmd.SetMetricsInterval? && !cmd.Initialise? ==> r.clock == s.clock
    // a changed positive interval makes the timer fire one interval after
    // the recorded start (or now), or at once if that moment has passed
    ensures !s.gathering && r.cfg.metricsInterval != s.cfg.metricsInterval && r.cfg.metricsInterval > 0 ==>
              && r.clock.timer.Armed?
              && now + r.clock.timer.after
                   == Max(now, (if s.clock.start.Some? then s.clock.start.value else now) + r.cfg.metricsInterval)
    ensures Inv(s) ==> Inv(r)
  {
    var cfg := Apply(s.cfg, cmd);
    s.(cfg := cfg, clock := Rearm(s.gathering, s.cfg.metricsInterval, cfg.metricsInterval, s.clock, now))
  }

  /** An event from the instrumentation; an error also asks for the
      compressor to be flushed so it goes out promptly. */
  function IngestArm(s: State, e: Event): (r: State)
    ensures r.req.flushRequest == (s.req.flushRequest || e.kind == ErrorEvent)
    ensures r.(req := s.req) == WriteEvent(s, e)
    ensures r.req.(flushRequest := s.req.flushRequest) == s.req
  {
    var w := WriteEvent(s, e);
    if e.kind == ErrorEvent then w.(req := w.req.(flushRequest := true)) else w
  }

  /** The request has been open for the configured duration. */
  function RequestTimerArm(s: State): State {
    s.(req := s.req.(timer := Stopped, closeRequest := true))
  }

  /** A `SendMetrics` caller: it becomes the metrics waiter (replacing any
      earlier one) and a running metrics timer is stopped. */
  function ForceSendMetricsArm(s: State, w: WaiterId): (r: State)
    ensures r.metricsWaiter == Some(w) && r.clock.start.None?
    ensures Consistent(s.clock) ==> r.clock == MetricsClock.Idle
    ensures r.(metricsWaiter := s.metricsWaiter, clock := s.clock) == s
  {
    s.(metricsWaiter := Some(w), clock := if s.clock.start.Some? then MetricsClock.Idle else s.clock)
  }

  /** The gathering round finished: its metricsets are buffered (the
      newest part of the old blocks, then those that fit), a flush is
      requested, and with a positive interval the timer is armed afresh. */
  function GatheredArm(s: State, metricsets: seq<nat>, now: int): (r: State)
    ensures !r.gathering && r.req.flushRequest
    ensures s.cfg.metricsInterval > 0 ==> r.clock == Clock(Some(now), Armed(s.cfg.metricsInterval))
    ensures s.cfg.metricsInterval <= 0 ==> r.clock == s.clock
    ensures r.trace == s.trace && r.cfg == s.cfg && r.local == s.local && r.stats == s.stats
    ensures IsSuffix(r.metrics.blocks, s.metrics.blocks + Fitting(metricsets, s.metrics.headerSize, s.metrics.capacity))
  {
    WriteMetricsSuffix(s, metricsets);
    var w := WriteMetrics(s, metricsets);
    w.(gathering := false, req := w.req.(flushRequest := true),
       clock := if s.cfg.metricsInterval > 0 then Clock(Some(now), Armed(s.cfg.metricsInterval)) else w.clock)
  }

  /** Where a `case` arm leaves the iteration. */
  datatype Dispatched = Continue(out: Out) | ToTail(state: State, effects: Effects)

  /** A `Flush` caller: queued events are written first (an error among them
      does not request a compressor flush), then the caller is acknowledged
      at once if no request is open and nothing is buffered, and forgotten;
      otherwise it becomes the flush waiter (replacing any earlier one), the
      request is marked for closing and the caller waits for its result. */
  function ForceFlushArm(s: State, w: WaiterId, queued: seq<Event>): (d: Dispatched)
    ensures var q := WriteEvents(s, queued);
            if !s.req.active && q.trace.IsEmpty() && q.metrics.IsEmpty()
            then d == Continue(Out(q.(flushWaiter := None), NoEffects.(flushAck := Some(w))))
            else d == ToTail(q.(flushWaiter := Some(w), req := q.req.(closeRequest := true)), NoEffects)
  {
    var q := WriteEvents(s, queued);
    if !q.req.active && q.trace.IsEmpty() && q.metrics.IsEmpty() then
      Continue(Out(q.(flushWaiter := None), NoEffects.(flushAck := Some(w))))
    else
      ToTail(q.(flushWaiter := Some(w), req := q.req.(closeRequest := true)), NoEffects)
  }

  /** The same arm as the Go tracer writes it: on the early acknowledgement
      the caller stays recorded as the flush waiter, so the next request
      result acknowledges it a second time. */
  function ForceFlushArmAsWritten(s: State, w: WaiterId, queued: seq<Event>): (d: Dispatched)
    ensures d.ToTail? ==> d == ForceFlushArm(s, w, queued)
    ensures d.Continue? ==> d.out.state.flushWaiter == Some(w) && d.out.effects.flushAck == Some(w)
    ensures d.Continue? <==> ForceFlushArm(s, w, queued).Continue?
  {
    var q := WriteEvents(s, queued);
    if !q.req.active && q.trace.IsEmpty() && q.metrics.IsEmpty() then
      Continue(Out(q.(flushWaiter := Some(w)), NoEffects.(flushAck := Some(w))))
    else
      ToTail(q.(flushWaiter := Some(w), req := q.req.(closeRequest := true)), NoEffects)
  }

  /** The transport asks for up to `bufLen` bytes. */
  function ReadArm(s: State, bufLen: nat): State {
    s.(req := s.req.(read := Some(bufLen)))
  }

  /** Per-category sent counters for a delivered request. */
  function SentStats(c: Counts): (r: Stats)
    ensures forall t :: Counted(t) ==> Sent(r, t) == CountOf(c, t)
    ensures forall t :: Dropped(r, t) == 0
    ensures r.sendStreamErrors == 0
  {
    Stats(0, c.errors, 0, c.transactions, 0, c.spans, 0)
  }

  /** The counters a request's outcome adds: its per-category counts as
      sent on success, one send error on failure. */
  function Outcome(ok: bool, c: Counts): (r: Stats)
    ensures ok ==> r == SentStats(c)
    ensures !ok ==> r.sendStreamErrors == 1 && forall t :: Sent(r, t) == 0 && Dropped(r, t) == 0
  {
    if ok then SentStats(c) else Zero.(sendStreamErrors := 1)
  }

  /** The request driver reported the outcome of the send. Success adds
      the request's counts to the sent counters and clears the grace
      period; failure counts a send error and advances the grace period.
      Either way the counters are folded, the flush waiter is acknowledged,
      the metrics waiter too if the request carried a metricset, and every
      per-request field is reset. */
  function ResultArm(s: State, ok: bool, nextGracePeriod: int -> int): (o: Out)
    ensures o.state.local == Zero
    ensures o.state.stats == Accumulate(s.stats, Accumulate(s.local, Outcome(ok, s.req.counts)))
    ensures o.state.gracePeriod == (if ok then -1 else nextGracePeriod(s.gracePeriod))
    ensures Reset(o.state.req) && !o.state.req.flushRequest
    ensures o.state.req.zlibFlushed == s.req.zlibFlushed && o.state.req.zlibClosed == s.req.zlibClosed
    ensures o.state.flushWaiter.None? && o.effects.flushAck == s.flushWaiter
    ensures if s.metricsWaiter.Some? && s.req.counts.metricsets > 0
            then o.effects.metricsAck == s.metricsWaiter && o.state.metricsWaiter.None?
            else o.effects.metricsAck.None? && o.state.metricsWaiter == s.metricsWaiter
    ensures o.effects.send.None? && o.effects.gather.None? && o.effects.response.None?
    ensures o.state.cfg == s.cfg && o.state.trace == s.trace && o.state.metrics == s.metrics
    ensures o.state.gathering == s.gathering && o.state.clock == s.clock
    ensures o.state.metadataLen == s.metadataLen && o.state.stopped == s.stopped
  {
    var local := Accumulate(s.local, Outcome(ok, s.req.counts));
    var grace := if ok then -1 else nextGracePeriod(s.gracePeriod);
    var f := Fold(s.stats, local);
    var ackMetrics := s.metricsWaiter.Some? && s.req.counts.metricsets > 0;
    var req := Request(false, 0, 0, s.req.zlibFlushed, s.req.zlibClosed, false, false, NoCounts, None, Stopped);
    Out(
      s.(stats := f.shared, local := f.local, gracePeriod := grace, req := req, flushWaiter := None,
         metricsWaiter := if ackMetrics then None else s.metricsWaiter),
      NoEffects.(flushAck := s.flushWaiter, metricsAck := if ackMetrics then s.metricsWaiter else None))
  }

  // ---------------------------------------------------------------- tail

  /** Folds the local counters into the shared ones. */
  function FoldLocal(s: State): (r: State)
    ensures r.local == Zero && r.stats == Accumulate(s.stats, s.local)
    ensures r.(stats := s.stats, local := s.local) == s
  {
    var f := Fold(s.stats, s.local);
    s.(stats := f.shared, local := f.local)
  }

  /** Starts a gathering round over the configured gatherers. */
  function StartGather(o: Out, gather: bool): Out {
    if gather then
      Out(o.state.(gathering := true),
          o.effects.(gather := Some(GatherRequest(o.state.cfg.metricsGatherers, o.state.cfg.disabledMetrics))))
    else o
  }

  /** Opens a request: the send is started with the current grace period,
      the metadata header is written, the compressor is fresh and the
      request timer runs for the configured duration. */
  function Open(o: Out): (r: Out)
    requires !o.state.req.active
    ensures r.state.req.active && !r.state.req.zlibFlushed && !r.state.req.zlibClosed
    ensures r.state.req.timer == Armed(o.state.cfg.requestDuration)
    ensures r.state.req.pending == o.state.req.pending + o.state.metadataLen
    ensures r.effects == o.effects.(send := Some(o.state.gracePeriod))
    ensures r.state.req.(active := false, pending := o.state.req.pending, zlibFlushed := o.state.req.zlibFlushed,
                         zlibClosed := o.state.req.zlibClosed, timer := o.state.req.timer) == o.state.req
    ensures r.state.(req := o.state.req) == o.state
  {
    var s := o.state;
    Out(s.(req := s.req.(active := true, pending := s.req.pending + s.metadataLen,
                         zlibFlushed := false, zlibClosed := false,
                         timer := Armed(s.cfg.requestDuration))),
        o.effects.(send := Some(s.gracePeriod)))
  }

  /** Unless the compressor is already closed on a request marked for
      closing, drains the buffers into the request and marks it for closing
      once it has reached the configured size. */
  function DrainPhase(s: State): (r: State)
    ensures r.(trace := s.trace, metrics := s.metrics, req := s.req) == s
    ensures r.trace.(blocks := s.trace.blocks) == s.trace && r.metrics.(blocks := s.metrics.blocks) == s.metrics
    ensures r.req.active == s.req.active && r.req.zlibClosed == s.req.zlibClosed && r.req.timer == s.req.timer
    ensures r.req.read == s.req.read && r.req.bytesRead == s.req.bytesRead && r.req.flushRequest == s.req.flushRequest
    ensures s.req.closeRequest ==> r.req.closeRequest
    ensures s.req.closeRequest && s.req.zlibClosed ==> r == s
  {
    if !s.req.closeRequest || !s.req.zlibClosed then
      var d := Drain(s.trace.blocks, s.metrics.blocks, s.req, s.cfg.requestSize, s.metricsWaiter.Some?);
      DrainFlags(s.trace.blocks, s.metrics.blocks, s.req, s.cfg.requestSize, s.metricsWaiter.Some?);
      var req := d.req.(closeRequest := d.req.closeRequest || d.req.bytesRead + d.req.pending >= s.cfg.requestSize);
      s.(trace := s.trace.(blocks := s.trace.blocks[d.tookTrace..]),
         metrics := s.metrics.(blocks := s.metrics.blocks[d.tookMetrics..]),
         req := req)
    else s
  }

  /** The drain phase consumes both buffers from the front; it takes trace
      blocks only once no metrics block is left; afterwards the request is
      marked for closing if it reached the configured size, and a request
      not marked for closing has emptied both buffers. */
  lemma DrainPhaseProgress(s: State)
    requires !s.req.closeRequest || !s.req.zlibClosed
    ensures var r := DrainPhase(s);
            && |r.trace.blocks| <= |s.trace.blocks| && r.trace.blocks == s.trace.blocks[|s.trace.blocks| - |r.trace.blocks|..]
            && |r.metrics.blocks| <= |s.metrics.blocks| && r.metrics.blocks == s.metrics.blocks[|s.metrics.blocks| - |r.metrics.blocks|..]
            && (|r.trace.blocks| < |s.trace.blocks| ==> r.metrics.IsEmpty())
            && (r.req.bytesRead + r.req.pending >= s.cfg.requestSize ==> r.req.closeRequest)
            && (!r.req.closeRequest ==> r.trace.IsEmpty() && r.metrics.IsEmpty())
  {
  }

  /** The drain phase respects the byte ceiling: each block it moved into
      the request was taken while the request, with the blocks taken before
      it, was still below the configured size. */
  lemma DrainPhaseCeiling(s: State)
    requires !s.req.closeRequest || !s.req.zlibClosed
    ensures var r := DrainPhase(s);
            var tm := |s.metrics.blocks| - |r.metrics.blocks|;
            var tt := |s.trace.blocks| - |r.trace.blocks|;
            && 0 <= tm <= |s.metrics.blocks| && 0 <= tt <= |s.trace.blocks|
            && (forall j :: 0 <= j < tm ==>
                  s.req.bytesRead + s.req.pending + Streamed(s.metrics.blocks[..j]) < s.cfg.requestSize)
            && (forall j :: 0 <= j < tt ==>
                  s.req.bytesRead + s.req.pending + Streamed(s.metrics.blocks[..tm]) + Streamed(s.trace.blocks[..j])
                    < s.cfg.requestSize)
  {
    DrainBelowCeiling(s.trace.blocks, s.metrics.blocks, s.req, s.cfg.requestSize, s.metricsWaiter.Some?);
  }

  /** Closes the compressor of a request marked for closing, which appends
      the stream trailer, or else flushes it if a flush was requested and
      data was written since the last flush. */
  function CompressPhase(s: State): (r: State)
    ensures r.(req := s.req) == s
    ensures r.req.(zlibClosed := s.req.zlibClosed, zlibFlushed := s.req.zlibFlushed, flushRequest := s.req.flushRequest,
                   pending := s.req.pending) == s.req
    ensures r.req.zlibClosed == (s.req.zlibClosed || s.req.closeRequest)
    // only closing the stream adds bytes: the trailer
    ensures s.req.closeRequest && !s.req.zlibClosed ==> r.req.pending == s.req.pending + ZlibTrailerLen
    ensures !s.req.closeRequest || s.req.zlibClosed ==> r.req.pending == s.req.pending
    ensures s.req.closeRequest ==> r.req.zlibFlushed == s.req.zlibFlushed && r.req.flushRequest == s.req.flushRequest
    ensures !s.req.closeRequest && s.req.flushRequest && !s.req.zlibFlushed ==> r.req.zlibFlushed && !r.req.flushRequest
    ensures !s.req.closeRequest && !(s.req.flushRequest && !s.req.zlibFlushed) ==> r == s
    // afterwards a request marked for closing has its compressor closed, and
    // a flush asked for before or still pending has happened or is moot
    ensures r.req.closeRequest ==> r.req.zlibClosed
    ensures s.req.flushRequest ==> r.req.zlibFlushed || r.req.zlibClosed
    ensures r.req.flushRequest ==> r.req.zlibFlushed || r.req.zlibClosed
  {
    if s.req.closeRequest then
      (if !s.req.zlibClosed then s.(req := s.req.(zlibClosed := true, pending := s.req.pending + ZlibTrailerLen)) else s)
    else if s.req.flushRequest && !s.req.zlibFlushed then
      s.(req := s.req.(flushRequest := false, zlibFlushed := true))
    else s
  }

  /** A read is outstanding, there are pending bytes, and more than the
      compressed-stream header has been produced. */
  predicate Serves(q: Request) {
    q.read.Some? && q.pending > 0 && q.bytesRead + q.pending > ZlibHeaderLen
  }

  /** Serves the transport's outstanding read from the pending bytes, once
      more than the compressed-stream header has been produced. The answer
      is end-of-stream when the request is marked for closing and nothing
      is left. */
  function ReadPhase(o: Out): (r: Out)
    ensures !Serves(o.state.req) ==> r == o
    ensures Serves(o.state.req) ==>
              && r.effects.response.Some? && r.state.req.read.None?
              && r.effects.response.value.n == Min(o.state.req.read.value, o.state.req.pending)
              && (r.effects.response.value.eof <==> o.state.req.closeRequest && r.state.req.pending == 0)
    ensures r.state.req.bytesRead + r.state.req.pending == o.state.req.bytesRead + o.state.req.pending
    ensures r.state.(req := o.state.req) == o.state
    ensures r.state.req.(read := o.state.req.read, bytesRead := o.state.req.bytesRead, pending := o.state.req.pending) == o.state.req
    ensures r.effects.(response := o.effects.response) == o.effects
  {
    if Serves(o.state.req) then Answer(o) else o
  }

  /** The read answered: as many bytes as asked for and pending move from
      pending to read. */
  function Answer(o: Out): (r: Out)
    requires Serves(o.state.req)
    ensures r.effects.response.Some? && r.state.req.read.None?
    ensures r.effects.response.value.n == Min(o.state.req.read.value, o.state.req.pending)
    ensures r.effects.response.value.eof <==> o.state.req.closeRequest && r.state.req.pending == 0
    ensures r.state.req.bytesRead + r.state.req.pending == o.state.req.bytesRead + o.state.req.pending
    ensures r.state.(req := o.state.req) == o.state
    ensures r.state.req.(read := o.state.req.read, bytesRead := o.state.req.bytesRead, pending := o.state.req.pending) == o.state.req
    ensures r.effects.(response := o.effects.response) == o.effects
  {
    var s := o.state;
    var n := Min(s.req.read.value, s.req.pending);
    var eof := s.req.closeRequest && s.req.pending - n == 0;
    Out(s.(req := s.req.(read := None, bytesRead := s.req.bytesRead + n, pending := s.req.pending - n)),
        o.effects.(response := Some(Response(n, eof))))
  }

  /** Closing the stream always leaves something for an outstanding read:
      the read is answered in the same iteration, and a read large enough
      for everything pending receives all of it with end-of-stream. */
  lemma CloseAnswersRead(s: State, e: Effects)
    requires s.req.closeRequest && !s.req.zlibClosed && s.req.read.Some?
    ensures var r := ReadPhase(Out(CompressPhase(s), e));
            && r.effects.response.Some?
            && (s.req.read.value > 0 ==> r.effects.response.value.n > 0)
            && (s.req.read.value >= s.req.pending + ZlibTrailerLen ==>
                  r.effects.response.value == Response(s.req.pending + ZlibTrailerLen, true))
  {
    var c := CompressPhase(s);
    assert c.req.pending == s.req.pending + ZlibTrailerLen;
    assert Serves(c.req);
  }

  /** The common tail of an iteration (everything after the `select`). */
  function Tail(s: State, effects: Effects, gather: bool): Out {
    var o := StartGather(Out(FoldLocal(s), effects), gather);
    if !o.state.req.active && o.state.trace.IsEmpty() && o.state.metrics.IsEmpty() then o
    else
      var started := if !o.state.req.active then Open(o) else o;
      ReadPhase(Out(CompressPhase(DrainPhase(started.state)), started.effects))
  }

  // ---------------------------------------------------------------- step

  /** One loop iteration. `nextGracePeriod` is the retry back-off policy. */
  function Step(s: State, i: Input, nextGracePeriod: int -> int): Out {
    if s.stopped then Out(s, NoEffects)
    else
      match i
      case Closing => Out(s.(stopped := true), NoEffects)
      case ConfigCmd(cmd, now) => Out(ConfigArm(s, cmd, now), NoEffects)
      case Ingest(e) => Tail(IngestArm(s, e), NoEffects, false)
      case RequestTimerFired => Tail(RequestTimerArm(s), NoEffects, false)
      case MetricsTimerFired => Tail(s.(clock := MetricsClock.Idle), NoEffects, !s.gathering)
      case ForceSendMetrics(w) => Tail(ForceSendMetricsArm(s, w), NoEffects, !s.gathering)
      case MetricsGathered(metricsets, now) => Tail(GatheredArm(s, metricsets, now), NoEffects, false)
      case ForceFlush(w, queued) =>
        (match ForceFlushArm(s, w, queued)
         case Continue(o) => o
         case ToTail(t, e) => Tail(t, e, false))
      case ReadRequest(bufLen) => Tail(ReadArm(s, bufLen), NoEffects, false)
      case RequestResult(ok) => OnResult(s, ok, nextGracePeriod)
  }

  /** The iteration on a request result: the result arm, then the tail. */
  function OnResult(s: State, ok: bool, nextGracePeriod: int -> int): Out {
    var o := ResultArm(s, ok, nextGracePeriod);
    Tail(o.state, o.effects, false)
  }
}

=== FILE: looplemmas.dfy ===
/** Properties of one loop iteration. */
module LoopLemmas {
  import opened Basics
  import opened RingBuffer
  import opened Counters
  import opened Settings
  import opened MetricsClock
  import opened LoopState
  import opened RequestDrain
  import opened ModelWriter
  import opened Loop

  /** Draining never pushes a buffer over its capacity. */
  lemma DrainPhaseCapacity(s: State)
    ensures WithinCapacity(s.trace) ==> WithinCapacity(DrainPhase(s).trace)
    ensures WithinCapacity(s.metrics) ==> WithinCapacity(DrainPhase(s).metrics)
  {
    var r := DrainPhase(s);
    if !s.req.closeRequest || !s.req.zlibClosed {
      DrainPhaseProgress(s);
      SuffixWithinCapacity(s.trace, r.trace);
      SuffixWithinCapacity(s.metrics, r.metrics);
    }
  }

  /** A buffer that lost some of its oldest blocks stays within capacity. */
  lemma SuffixWithinCapacity(a: Ring, b: Ring)
    requires b.(blocks := a.blocks) == a
    requires |b.blocks| <= |a.blocks| && b.blocks == a.blocks[|a.blocks| - |b.blocks|..]
    ensures WithinCapacity(a) ==> WithinCapacity(b)
  {
    UsedSuffix(a.blocks, |a.blocks| - |b.blocks|, a.headerSize);
  }

  /** The tail touches neither the configuration, the grace period, the
      waiters, the metrics clock nor the lifecycle flag; it folds the local
      counters and only adds effects: a send exactly when it opens a
      request, a gathering round exactly when asked to. */
  lemma TailFrame(s: State, e: Effects, gather: bool)
    ensures var o := Tail(s, e, gather);
            && o.state.cfg == s.cfg && o.state.gracePeriod == s.gracePeriod
            && o.state.flushWaiter == s.flushWaiter && o.state.metricsWaiter == s.metricsWaiter
            && o.state.clock == s.clock && o.state.stopped == s.stopped && o.state.metadataLen == s.metadataLen
            && o.state.gathering == (s.gathering || gather)
            && o.state.local == Zero && o.state.stats == Accumulate(s.stats, s.local)
            && o.effects.flushAck == e.flushAck && o.effects.metricsAck == e.metricsAck
            && (o.effects.gather.Some? <==> gather || e.gather.Some?)
            && (gather ==> o.effects.gather == Some(GatherRequest(s.cfg.metricsGatherers, s.cfg.disabledMetrics)))
            && (if !s.req.active && !(s.trace.IsEmpty() && s.metrics.IsEmpty())
                then o.effects.send == Some(s.gracePeriod) && o.state.req.active
                else o.effects.send == e.send)
            && (o.state.req.active <==> s.req.active || !(s.trace.IsEmpty() && s.metrics.IsEmpty()))
  {
  }

  /** The conditions the drain, compress and read phases need: an open
      request, everything else as in `Inv`. */
  predicate OpenReady(t: State) {
    && t.req.active
    && WithinCapacity(t.trace) && WithinCapacity(t.metrics)
    && t.local == Zero && Consistent(t.clock) && (t.gathering ==> t.clock.start.None?)
    && (t.req.zlibClosed ==> t.req.closeRequest)
  }

  /** Drain, compress and read keep the invariant of an open request. */
  lemma PhasesInv(t: State, e: Effects)
    requires OpenReady(t)
    ensures Inv(ReadPhase(Out(CompressPhase(DrainPhase(t)), e)).state)
  {
    var d := DrainPhase(t);
    DrainPhaseCapacity(t);
    assert OpenReady(d);
    var c := CompressPhase(d);
    assert OpenReady(c);
  }

  /** The tail re-establishes the loop invariant from what the arms leave. */
  lemma TailInv(s: State, e: Effects, gather: bool)
    requires PreTail(s)
    requires gather ==> !s.gathering && s.clock.start.None?
    ensures Inv(Tail(s, e, gather).state)
  {
    var o := StartGather(Out(FoldLocal(s), e), gather);
    if !o.state.req.active && o.state.trace.IsEmpty() && o.state.metrics.IsEmpty() {
      assert Tail(s, e, gather) == o;
    } else {
      var started := if !o.state.req.active then Open(o) else o;
      assert OpenReady(started.state);
      PhasesInv(started.state, started.effects);
      assert Tail(s, e, gather) == ReadPhase(Out(CompressPhase(DrainPhase(started.state)), started.effects));
    }
  }

  /** Each arm that hands over to the tail leaves what the tail needs. */
  lemma IngestPreTail(s: State, e: Event)
    requires Inv(s)
    ensures PreTail(IngestArm(s, e))
  {
  }

  lemma RequestTimerPreTail(s: State)
    requires Inv(s) && s.req.timer.Armed?
    ensures PreTail(RequestTimerArm(s))
  {
  }

  lemma ForceSendMetricsPreTail(s: State, w: WaiterId)
    requires Inv(s)
    ensures PreTail(ForceSendMetricsArm(s, w)) && ForceSendMetricsArm(s, w).clock.start.None?
  {
  }

  lemma GatheredPreTail(s: State, metricsets: seq<nat>, now: int)
    requires Inv(s)
    ensures PreTail(GatheredArm(s, metricsets, now))
  {
  }

  lemma ReadPreTail(s: State, bufLen: nat)
    requires Inv(s) && s.req.active
    ensures PreTail(ReadArm(s, bufLen))
  {
  }

  /** The result arm resets the request and releases the flush waiter,
      leaving the buffers and the metrics clock as they were. */
  lemma ResultPreTail(s: State, r: State)
    requires Inv(s)
    requires r.trace == s.trace && r.metrics == s.metrics && r.clock == s.clock && r.gathering == s.gathering
    requires Reset(r.req) && r.flushWaiter.None?
    ensures PreTail(r)
  {
  }

  /** The early acknowledgement of a `Flush` already ends in the loop
      invariant (an eviction always leaves the trace buffer non-empty, so
      an empty buffer means nothing was dropped and nothing needs folding);
      otherwise the arm leaves what the tail needs. */
  lemma ForceFlushInv(s: State, w: WaiterId, queued: seq<Event>)
    requires Inv(s)
    ensures match ForceFlushArm(s, w, queued)
            case Continue(o) => Inv(o.state)
            case ToTail(t, _) => PreTail(t)
  {
  }

  /** Every enabled input preserves the loop invariant. In particular the
      local counters are always folded by the end of an iteration, and a
      waiting `Flush` caller always has a request in flight. */
  lemma StepInv(s: State, i: Input, nextGracePeriod: int -> int)
    requires Inv(s) && Enabled(s, i)
    ensures Inv(Step(s, i, nextGracePeriod).state)
  {
    match i
    case Closing =>
    case ConfigCmd(cmd, now) =>
    case Ingest(e) =>
      IngestPreTail(s, e);
      TailInv(IngestArm(s, e), NoEffects, false);
    case RequestTimerFired =>
      RequestTimerPreTail(s);
      TailInv(RequestTimerArm(s), NoEffects, false);
    case MetricsTimerFired =>
      TailInv(s.(clock := MetricsClock.Idle), NoEffects, !s.gathering);
    case ForceSendMetrics(w) =>
      ForceSendMetricsPreTail(s, w);
      TailInv(ForceSendMetricsArm(s, w), NoEffects, !s.gathering);
    case MetricsGathered(metricsets, now) =>
      GatheredPreTail(s, metricsets, now);
      TailInv(GatheredArm(s, metricsets, now), NoEffects, false);
    case ForceFlush(w, queued) =>
      ForceFlushInv(s, w, queued);
      match ForceFlushArm(s, w, queued) {
        case Continue(o) =>
        case ToTail(t, e) => TailInv(t, e, false);
      }
    case ReadRequest(bufLen) =>
      ReadPreTail(s, bufLen);
      TailInv(ReadArm(s, bufLen), NoEffects, false);
    case RequestResult(ok) =>
      var o := ResultArm(s, ok, nextGracePeriod);
      ResultPreTail(s, o.state);
      TailInv(o.state, o.effects, false);
  }
}

=== FILE: loopstate.dfy ===
/** The state owned by the tracer loop, the inputs it multiplexes and the
    effects one iteration has on the outside world. */
module LoopState {
  import opened Basics
  import opened RingBuffer
  import opened Counters
  import opened Settings
  import opened MetricsClock

  /** Identity of a caller blocked in `Flush` or `SendMetrics` (its
      acknowledgement channel). */
  type WaiterId = nat

  /** Blocks of each category written into the current request. */
  datatype Counts = Counts(transactions: nat, spans: nat, errors: nat, metricsets: nat)

  const NoCounts := Counts(0, 0, 0, 0)

  function CountOf(c: Counts, t: Tag): nat {
    match t
    case TransactionTag => c.transactions
    case SpanTag => c.spans
    case ErrorTag => c.errors
    case MetricsetTag => c.metricsets
  }

  /** The lifecycle of the outgoing request. `pending` is the number of
      bytes written to the request buffer and not yet handed to the
      transport; `read` is the size of the transport's outstanding read. */
  datatype Request = Request(
    active: bool,
    bytesRead: nat,
    pending: nat,
    zlibFlushed: bool,
    zlibClosed: bool,
    closeRequest: bool,
    flushRequest: bool,
    counts: Counts,
    read: Option<nat>,
    timer: Timer)

  /** Per-request fields as they are between requests. */
  predicate Reset(r: Request) {
    && !r.active && r.bytesRead == 0 && r.pending == 0 && r.counts == NoCounts
    && !r.closeRequest && r.read.None? && r.timer.Stopped?
  }

  datatype State = State(
    cfg: Config,
    trace: Ring,
    metrics: Ring,
    req: Request,
    gracePeriod: int,
    flushWaiter: Option<WaiterId>,
    metricsWaiter: Option<WaiterId>,
    gathering: bool,
    clock: Clock,
    local: Stats,
    stats: Stats,
    metadataLen: nat,
    stopped: bool)

  /** The loop's state before its first iteration. */
  function Initial(bufferSize: int, metricsBufferSize: int, headerSize: nat, metadataLen: nat): (s: State)
    ensures Inv(s)
  {
    State(
      Settings.Empty,
      Ring(bufferSize, headerSize, []),
      Ring(metricsBufferSize, headerSize, []),
      Request(false, 0, 0, true, false, false, false, NoCounts, None, Stopped),
      -1, None, None, false, MetricsClock.Idle, Zero, Zero, metadataLen, false)
  }

  datatype EventKind = TransactionEvent | SpanEvent | ErrorEvent

  /** A finished record; `size` is the length of its encoded block. */
  datatype Event = Event(kind: EventKind, size: nat)

  function TagOf(k: EventKind): Tag {
    match k
    case TransactionEvent => TransactionTag
    case SpanEvent => SpanTag
    case ErrorEvent => ErrorTag
  }

  /** One message taken by the loop's `select`. */
  datatype Input =
    | Closing
    | ConfigCmd(cmd: Command, now: int)
    | Ingest(event: Event)
    | RequestTimerFired
    | MetricsTimerFired
    | ForceSendMetrics(sender: WaiterId)
    | MetricsGathered(metricsets: seq<nat>, now: int)
    | ForceFlush(flusher: WaiterId, queued: seq<Event>)
    | ReadRequest(bufLen: nat)
    | RequestResult(ok: bool)

  /** The answer given to the transport's read. */
  datatype Response = Response(n: nat, eof: bool)

  /** A metrics-gathering round: the gatherers to run and the metric name
      patterns to leave out. */
  datatype GatherRequest = GatherRequest(gatherers: seq<GathererId>, disabled: seq<string>)

  /** What one iteration does outside the loop: start a send with the given
      grace period, acknowledge waiters, start gathering metrics, answer a
      read. */
  datatype Effects = Effects(
    send: Option<int>,
    flushAck: Option<WaiterId>,
    metricsAck: Option<WaiterId>,
    gather: Option<GatherRequest>,
    response: Option<Response>)

  const NoEffects := Effects(None, None, None, None, None)

  /** The inputs the environment can deliver in state `s`: timers only fire
      while armed, the gatherer only reports while gathering, the transport
      only reads (one read at a time) and returns while a request is open,
      and nothing is received after the loop returned. */
  predicate Enabled(s: State, i: Input) {
    && !s.stopped
    && match i
       case RequestTimerFired => s.req.timer.Armed?
       case MetricsTimerFired => s.clock.timer.Armed?
       case MetricsGathered(_, _) => s.gathering
       case ReadRequest(_) => s.req.active && s.req.read.None?
       case RequestResult(_) => s.req.active
       case _ => true
  }

  /** What holds between loop iterations: both buffers within capacity, the
      local counters already folded, the metrics timer running exactly when
      a start time is recorded and never while gathering, the per-request
      fields reset while no request is open, a closed compressor only on a
      request marked for closing, and a waiting `Flush` caller only while a
      request is open (its result acknowledges the caller). */
  predicate Inv(s: State) {
    && WithinCapacity(s.trace)
    && WithinCapacity(s.metrics)
    && s.local == Zero
    && Consistent(s.clock)
    && (s.gathering ==> s.clock.start.None?)
    && (!s.req.active ==> Reset(s.req))
    && (s.req.active && s.req.zlibClosed ==> s.req.closeRequest)
    && (s.flushWaiter.Some? ==> s.req.active)
  }

  /** What holds when a `case` arm hands over to the common tail of the
      iteration: as `Inv`, except that the local counters may be non-zero,
      and an idle request may already be marked for closing when there is
      buffered data (so that the tail opens it, also for a flush waiter). */
  predicate PreTail(s: State) {
    && WithinCapacity(s.trace)
    && WithinCapacity(s.metrics)
    && Consistent(s.clock)
    && (s.gathering ==> s.clock.start.None?)
    && (!s.req.active ==> Reset(s.req.(closeRequest := false)))
    && (!s.req.active && s.req.closeRequest ==> !(s.trace.IsEmpty() && s.metrics.IsEmpty()))
    && (s.req.active && s.req.zlibClosed ==> s.req.closeRequest)
    && (s.flushWaiter.Some? ==> s.req.active || s.req.closeRequest)
  }
}

=== FILE: metricsclock.dfy ===
/** The metrics timer and its start time, and how a change of the metrics
    interval rearms them. Time is an integer clock reading. */
module MetricsClock {
  import opened Basics

  /** A timer is stopped, or armed to fire `after` time units from the
      moment it was last reset. */
  datatype Timer = Stopped | Armed(after: int)

  /** `metricsTimerStart` (None for the zero time) with the metrics timer. */
  datatype Clock = Clock(start: Option<int>, timer: Timer)

  const Idle := Clock(None, Stopped)

  /** The timer runs exactly when a start time is recorded. */
  predicate Consistent(c: Clock) {
    c.timer.Armed? <==> c.start.Some?
  }

  function Max(a: int, b: int): int { if a >= b then a else b }

  /** The rearm performed after a configuration command changed the
      interval from `oldInterval` to `newInterval` at time `now`. Nothing
      happens while metrics are being gathered or when the interval is
      unchanged. A running timer keeps its start, so it fires at the start
      plus the new interval, or at once if that moment has passed; a
      non-positive interval stops it; an idle timer is armed for the full
      interval. */
  function Rearm(gathering: bool, oldInterval: int, newInterval: int, c: Clock, now: int): (r: Clock)
    ensures gathering || newInterval == oldInterval ==> r == c
    ensures Consistent(c) ==> Consistent(r)
    ensures !gathering && newInterval != oldInterval && newInterval <= 0 && Consistent(c) ==> r == Idle
    ensures !gathering && newInterval != oldInterval && newInterval > 0 ==>
              && r.timer.Armed? && r.timer.after >= 0
              && r.start == (if c.start.Some? then c.start else Some(now))
              && now + r.timer.after == Max(now, r.start.value + newInterval)
  {
    if gathering || newInterval == oldInterval then c
    else if c.start.None? then
      if newInterval > 0 then Clock(Some(now), Armed(newInterval)) else c
    else if newInterval <= 0 then Idle
    else
      var alreadyPassed := now - c.start.value;
      if alreadyPassed >= newInterval then c.(timer := Armed(0))
      else c.(timer := Armed(newInterval - alreadyPassed))
  }
}

=== FILE: options.dfy ===
/** `options.init`: each setting is read from the environment; a setting
    that fails to parse takes its default and its error is recorded. With
    `continueOnError` the errors are only logged, otherwise the first one is
    returned and no option is set. */
module Options {
  import opened Basics

  type Error = string
  type SamplerId = nat

  datatype CaptureBodyMode = CaptureBodyOff | CaptureBodyErrors | CaptureBodyTransactions | CaptureBodyAll

  /** What each environment parser returned. The pattern lists and the
      service descriptors have no failure case. */
  datatype Env = Env(
    requestDuration: Result<int, Error>,
    metricsInterval: Result<int, Error>,
    requestSize: Result<int, Error>,
    bufferSize: Result<int, Error>,
    metricsBufferSize: Result<int, Error>,
    maxSpans: Result<int, Error>,
    sampler: Result<Option<SamplerId>, Error>,
    captureHeaders: Result<bool, Error>,
    captureBody: Result<CaptureBodyMode, Error>,
    spanFramesMinDuration: Result<int, Error>,
    active: Result<bool, Error>,
    sanitizedFieldNames: seq<string>,
    disabledMetrics: seq<string>,
    serviceName: string,
    serviceVersion: string,
    serviceEnvironment: string)

  /** The package defaults for the settings whose default is not spelled out
      next to `options.init`. */
  datatype Defaults = Defaults(
    requestDuration: int,
    metricsInterval: int,
    requestSize: int,
    bufferSize: int,
    metricsBufferSize: int,
    maxSpans: int,
    captureHeaders: bool,
    spanFramesMinDuration: int)

  datatype Opts = Opts(
    requestDuration: int,
    metricsInterval: int,
    maxSpans: int,
    requestSize: int,
    bufferSize: int,
    metricsBufferSize: int,
    sampler: Option<SamplerId>,
    sanitizedFieldNames: seq<string>,
    disabledMetrics: seq<string>,
    captureHeaders: bool,
    captureBody: CaptureBodyMode,
    spanFramesMinDuration: int,
    serviceName: string,
    serviceVersion: string,
    serviceEnvironment: string,
    active: bool)

  /** Options together with the errors that were logged while reading them. */
  datatype Initialised = Initialised(opts: Opts, logged: seq<Error>)

  function ValueOr<T>(r: Result<T, Error>, default: T): T {
    match r
    case Success(v) => v
    case Failure(_) => default
  }

  /** The error of a parser that failed. */
  function FailureOf<T>(r: Result<T, Error>): Option<Error> {
    match r
    case Success(_) => None
    case Failure(e) => Some(e)
  }

  /** Each parser's failure, in the order the settings are read. */
  function Failures(env: Env): seq<Option<Error>> {
    [FailureOf(env.requestDuration), FailureOf(env.metricsInterval), FailureOf(env.requestSize),
     FailureOf(env.bufferSize), FailureOf(env.metricsBufferSize), FailureOf(env.maxSpans),
     FailureOf(env.sampler), FailureOf(env.captureHeaders), FailureOf(env.captureBody),
     FailureOf(env.spanFramesMinDuration), FailureOf(env.active)]
  }

  /** The errors present in `fs`, in order. */
  function Collect(fs: seq<Option<Error>>): seq<Error>
    decreases |fs|
  {
    if fs == [] then []
    else (if fs[0].Some? then [fs[0].value] else []) + Collect(fs[1..])
  }

  /** The parse errors, in the order the settings are read. */
  function Errors(env: Env): seq<Error> {
    Collect(Failures(env))
  }

  /** Every setting parsed. */
  predicate AllParsed(env: Env) {
    forall i :: 0 <= i < |Failures(env)| ==> Failures(env)[i].None?
  }

  /** No error is collected exactly when every entry is absent. */
  lemma {:induction false} CollectEmpty(fs: seq<Option<Error>>)
    ensures Collect(fs) == [] <==> forall i :: 0 <= i < |fs| ==> fs[i].None?
    decreases |fs|
  {
    if fs != [] {
      CollectEmpty(fs[1..]);
      if fs[0].None? {
        forall i | 1 <= i < |fs| ensures fs[i] == fs[1..][i - 1] { }
      }
    }
  }

  /** The first collected error is that of the first entry present. */
  lemma {:induction false} CollectHead(fs: seq<Option<Error>>, i: nat)
    requires i < |fs| && fs[i].Some?
    requires forall j :: 0 <= j < i ==> fs[j].None?
    ensures Collect(fs) != [] && Collect(fs)[0] == fs[i].value
    decreases i
  {
    if i > 0 {
      assert fs[0].None?;
      CollectHead(fs[1..], i - 1);
    }
  }

  /** No error exactly when every setting parsed; the first error belongs to
      the first setting, in reading order, that failed. */
  lemma ErrorsShape(env: Env)
    ensures Errors(env) == [] <==> AllParsed(env)
    ensures forall i :: 0 <= i < |Failures(env)| && Failures(env)[i].Some?
                        && (forall j :: 0 <= j < i ==> Failures(env)[j].None?) ==>
              Errors(env) != [] && Errors(env)[0] == Failures(env)[i].value
  {
    var fs := Failures(env);
    CollectEmpty(fs);
    forall i | 0 <= i < |fs| && fs[i].Some? && (forall j :: 0 <= j < i ==> fs[j].None?)
      ensures Collect(fs) != [] && Collect(fs)[0] == fs[i].value
    {
      CollectHead(fs, i);
    }
    if env.requestDuration.Failure? {
      CollectHead(fs, 0);
    } else if env.metricsInterval.Failure? {
      CollectHead(fs, 1);
    }
  }

  /** Each option is its parser's value, or the default when the parser
      failed; the pattern lists and service descriptors are taken as read. */
  predicate FromEnv(env: Env, d: Defaults, o: Opts) {
    && (env.requestDuration.Success? ==> o.requestDuration == env.requestDuration.value)
    && (env.requestDuration.Failure? ==> o.requestDuration == d.requestDuration)
    && (env.metricsInterval.Success? ==> o.metricsInterval == env.metricsInterval.value)
    && (env.metricsInterval.Failure? ==> o.metricsInterval == d.metricsInterval)
    && (env.requestSize.Success? ==> o.requestSize == env.requestSize.value)
    && (env.requestSize.Failure? ==> o.requestSize == d.requestSize)
    && (env.bufferSize.Success? ==> o.bufferSize == env.bufferSize.value)
    && (env.bufferSize.Failure? ==> o.bufferSize == d.bufferSize)
    && (env.metricsBufferSize.Success? ==> o.metricsBufferSize == env.metricsBufferSize.value)
    && (env.metricsBufferSize.Failure? ==> o.metricsBufferSize == d.metricsBufferSize)
    && (env.maxSpans.Success? ==> o.maxSpans == env.maxSpans.value)
    && (env.maxSpans.Failure? ==> o.maxSpans == d.maxSpans)
    && (env.sampler.Success? ==> o.sampler == env.sampler.value)
    && (env.sampler.Failure? ==> o.sampler == None)
    && (env.captureHeaders.Success? ==> o.captureHeaders == env.captureHeaders.value)
    && (env.captureHeaders.Failure? ==> o.captureHeaders == d.captureHeaders)
    && (env.captureBody.Success? ==> o.captureBody == env.captureBody.value)
    && (env.captureBody.Failure? ==> o.captureBody == CaptureBodyOff)
    && (env.spanFramesMinDuration.Success? ==> o.spanFramesMinDuration == env.spanFramesMinDuration.value)
    && (env.spanFramesMinDuration.Failure? ==> o.spanFramesMinDuration == d.spanFramesMinDuration)
    && (env.active.Success? ==> o.active == env.active.value)
    && (env.active.Failure? ==> o.active)
    && o.sanitizedFieldNames == env.sanitizedFieldNames
    && o.disabledMetrics == env.disabledMetrics
    && o.serviceName == env.serviceName
    && o.serviceVersion == env.serviceVersion
    && o.serviceEnvironment == env.serviceEnvironment
  }

  /** The options read from the parsers' results. */
  function Read(env: Env, d: Defaults): (o: Opts)
    ensures FromEnv(env, d, o)
  {
    Opts(
      ValueOr(env.requestDuration, d.requestDuration),
      ValueOr(env.metricsInterval, d.metricsInterval),
      ValueOr(env.maxSpans, d.maxSpans),
      ValueOr(env.requestSize, d.requestSize),
      ValueOr(env.bufferSize, d.bufferSize),
      ValueOr(env.metricsBufferSize, d.metricsBufferSize),
      ValueOr(env.sampler, None),
      env.sanitizedFieldNames,
      env.disabledMetrics,
      ValueOr(env.captureHeaders, d.captureHeaders),
      ValueOr(env.captureBody, CaptureBodyOff),
      ValueOr(env.spanFramesMinDuration, d.spanFramesMinDuration),
      env.serviceName, env.serviceVersion, env.serviceEnvironment,
      ValueOr(env.active, true))
  }

  function Init(env: Env, d: Defaults, continueOnError: bool): (r: Result<Initialised, Error>)
    ensures r.Failure? <==> !continueOnError && !AllParsed(env)
    ensures r.Failure? ==> Errors(env) != [] && r.error == Errors(env)[0]
    ensures r.Success? ==> r.value.logged == Errors(env)
    ensures r.Success? ==> FromEnv(env, d, r.value.opts)
  {
    var errs := Errors(env);
    ErrorsShape(env);
    if errs != [] && !continueOnError then
      Failure(errs[0])
    else
      Success(Initialised(Read(env, d), errs))
  }
}

=== FILE: ringbuffer.dfy ===
/** The bounded ring buffer of tagged blocks, seen from the tracer loop:
    a FIFO store whose occupancy never exceeds its capacity, evicting the
    oldest blocks to make room for a new one. */
module RingBuffer {

  /** The tag written in front of every block. */
  datatype Tag = TransactionTag | SpanTag | ErrorTag | MetricsetTag

  /** A self-delimiting block: its tag and the length of its encoded payload. */
  datatype Block = Block(tag: Tag, size: nat)

  /** A buffer of `capacity` bytes; each stored block also costs `headerSize`
      bytes of framing. `blocks` is oldest first. */
  datatype Ring = Ring(capacity: int, headerSize: nat, blocks: seq<Block>) {
    /** `Len() == 0`: the buffer holds no block. */
    predicate IsEmpty() { |blocks| == 0 }
  }

  function Footprint(b: Block, headerSize: nat): nat {
    headerSize + b.size
  }

  /** Bytes occupied by a run of blocks. */
  function Used(bs: seq<Block>, headerSize: nat): nat {
    if bs == [] then 0 else Footprint(bs[0], headerSize) + Used(bs[1..], headerSize)
  }

  function Len(r: Ring): nat {
    Used(r.blocks, r.headerSize)
  }

  /** Occupancy never exceeds the capacity (an empty buffer of any capacity
      qualifies). */
  predicate WithinCapacity(r: Ring) {
    r.IsEmpty() || Len(r) <= r.capacity
  }

  /** Number of blocks in `bs` carrying tag `t`. */
  function CountTag(bs: seq<Block>, t: Tag): nat {
    if bs == [] then 0 else (if bs[0].tag == t then 1 else 0) + CountTag(bs[1..], t)
  }

  lemma {:induction false} UsedAppend(a: seq<Block>, b: seq<Block>, h: nat)
    ensures Used(a + b, h) == Used(a, h) + Used(b, h)
  {
    if a == [] {
      assert a + b == b;
    } else {
      assert (a + b)[1..] == a[1..] + b;
      UsedAppend(a[1..], b, h);
    }
  }

  lemma {:induction false} CountTagAppend(a: seq<Block>, b: seq<Block>, t: Tag)
    ensures CountTag(a + b, t) == CountTag(a, t) + CountTag(b, t)
  {
    if a == [] {
      assert a + b == b;
    } else {
      assert (a + b)[1..] == a[1..] + b;
      CountTagAppend(a[1..], b, t);
    }
  }

  /** Dropping the oldest blocks never increases occupancy. */
  lemma UsedSuffix(bs: seq<Block>, k: nat, h: nat)
    requires k <= |bs|
    ensures Used(bs[k..], h) <= Used(bs, h)
  {
    assert bs == bs[..k] + bs[k..];
    UsedAppend(bs[..k], bs[k..], h);
  }

  /** The fewest oldest blocks of `bs` to evict so that the rest occupies at
      most `room` bytes. */
  function EvictCount(bs: seq<Block>, h: nat, room: int): (k: nat)
    requires room >= 0
    ensures k <= |bs|
    ensures Used(bs[k..], h) <= room
    ensures k > 0 ==> Used(bs[k - 1..], h) > room
    decreases |bs|
  {
    if Used(bs, h) <= room then 0
    else
      var k' := EvictCount(bs[1..], h, room);
      assert bs[1..][k'..] == bs[1 + k'..];
      assert k' > 0 ==> bs[1..][k' - 1..] == bs[k'..];
      1 + k'
  }

  /** Outcome of `WriteBlock`: the new buffer, the blocks evicted (oldest
      first, each reported to the eviction callback), and whether the new
      block was stored at all. */
  datatype Insertion = Insertion(ring: Ring, evicted: seq<Block>, stored: bool)

  /** Appends `b`, evicting the oldest blocks until it fits; a block larger
      than the whole buffer is refused and nothing is evicted. */
  function Insert(r: Ring, b: Block): (o: Insertion)
    ensures o.ring.capacity == r.capacity && o.ring.headerSize == r.headerSize
    ensures o.stored <==> Footprint(b, r.headerSize) <= r.capacity
    ensures o.stored ==> && |o.evicted| <= |r.blocks|
                         && o.evicted == r.blocks[..|o.evicted|]
                         && o.ring.blocks == r.blocks[|o.evicted|..] + [b]
    ensures o.stored ==> WithinCapacity(o.ring)
    ensures o.stored ==> !o.ring.IsEmpty() && o.ring.blocks[|o.ring.blocks| - 1] == b
    ensures o.stored && o.evicted != [] ==>
              Used(r.blocks[|o.evicted| - 1..], r.headerSize) + Footprint(b, r.headerSize) > r.capacity
    ensures !o.stored ==> o.ring == r && o.evicted == []
  {
    var f := Footprint(b, r.headerSize);
    if f > r.capacity then Insertion(r, [], false)
    else
      var k := EvictCount(r.blocks, r.headerSize, r.capacity - f);
      var kept := r.blocks[k..] + [b];
      UsedAppend(r.blocks[k..], [b], r.headerSize);
      Insertion(r.(blocks := kept), r.blocks[..k], true)
  }
}

=== FILE: settings.dfy ===
/** tracerConfig and the configuration commands the loop applies in
    receipt order, including the metrics-gatherer registration list. */
module Settings {
  import opened Basics

  /** Identity of a registered gatherer (the wrapper pointer the Go tracer
      allocates per registration). */
  type GathererId = nat

  /** Loggers and context setters are opaque handles. */
  type Handle = nat

  /** The runtime configuration owned by the loop. Durations are integers. */
  datatype Config = Config(
    requestSize: int,
    requestDuration: int,
    metricsInterval: int,
    logger: Option<Handle>,
    metricsGatherers: seq<GathererId>,
    contextSetter: Option<Handle>,
    preContext: int,
    postContext: int,
    sanitizedFieldNames: seq<string>,
    disabledMetrics: seq<string>)

  /** The zero value the loop starts from. */
  const Empty := Config(0, 0, 0, None, [], None, 0, 0, [], [])

  /** Number of source lines of context around a stack frame. */
  const DefaultPreContext := 3
  const DefaultPostContext := 3

  /** The commands the Go tracer sends through its config-command channel. */
  datatype Command =
    | Initialise(metricsInterval: int, requestDuration: int, requestSize: int,
                 sanitizedFieldNames: seq<string>, disabledMetrics: seq<string>,
                 builtinGatherer: GathererId, defaultLogger: Option<Handle>)
    | SetRequestDuration(d: int)
    | SetMetricsInterval(d: int)
    | SetContextSetter(setter: Option<Handle>)
    | SetLogger(logger: Option<Handle>)
    | SetSanitizedFieldNames(patterns: seq<string>)
    | RegisterGatherer(id: GathererId)
    | DeregisterGatherer(id: GathererId)

  /** Every entry of `gs` except those equal to `id`, in order. */
  function Remove(gs: seq<GathererId>, id: GathererId): (r: seq<GathererId>)
    ensures |r| <= |gs|
    ensures forall g :: g in r <==> g in gs && g != id
    decreases |gs|
  {
    if gs == [] then []
    else if gs[0] == id then Remove(gs[1..], id)
    else [gs[0]] + Remove(gs[1..], id)
  }

  /** No gatherer is registered twice. */
  predicate Distinct(gs: seq<GathererId>) {
    forall i, j :: 0 <= i < j < |gs| ==> gs[i] != gs[j]
  }

  /** Removing an entry that is absent changes nothing. */
  lemma {:induction false} RemoveAbsent(gs: seq<GathererId>, id: GathererId)
    requires id !in gs
    ensures Remove(gs, id) == gs
    decreases |gs|
  {
    if gs != [] {
      RemoveAbsent(gs[1..], id);
      assert [gs[0]] + gs[1..] == gs;
    }
  }

  /** In a list without duplicates, deregistration removes exactly the one
      position holding the gatherer and keeps the others in order. */
  lemma {:induction false} RemoveAt(gs: seq<GathererId>, i: nat)
    requires Distinct(gs) && i < |gs|
    ensures Remove(gs, gs[i]) == gs[..i] + gs[i + 1..]
    decreases |gs|
  {
    if i == 0 {
      assert gs[0] !in gs[1..] by {
        forall j | 0 <= j < |gs[1..]| ensures gs[1..][j] != gs[0] {
          assert gs[1..][j] == gs[j + 1];
        }
      }
      RemoveAbsent(gs[1..], gs[0]);
    } else {
      assert Distinct(gs[1..]) by {
        forall a, b | 0 <= a < b < |gs[1..]| ensures gs[1..][a] != gs[1..][b] {
          assert gs[1..][a] == gs[a + 1] && gs[1..][b] == gs[b + 1];
        }
      }
      RemoveAt(gs[1..], i - 1);
      assert gs[1..][i - 1] == gs[i];
      assert gs[1..][..i - 1] + gs[1..][i..] == gs[1..i] + gs[i + 1..];
      assert gs[..i] == [gs[0]] + gs[1..i];
    }
  }

  /** Deregistering twice is the same as deregistering once, so the
      `sync.Once` guard on the deregistration handle is not observable. */
  lemma {:induction false} RemoveIdempotent(gs: seq<GathererId>, id: GathererId)
    ensures Remove(Remove(gs, id), id) == Remove(gs, id)
  {
    RemoveAbsent(Remove(gs, id), id);
  }

  /** Applies a command to the configuration. */
  function Apply(cfg: Config, cmd: Command): (r: Config)
    ensures cmd.SetRequestDuration? ==> r.(requestDuration := cfg.requestDuration) == cfg && r.requestDuration == cmd.d
    ensures cmd.SetMetricsInterval? ==> r.(metricsInterval := cfg.metricsInterval) == cfg && r.metricsInterval == cmd.d
    ensures cmd.SetContextSetter? ==> r.(contextSetter := cfg.contextSetter) == cfg && r.contextSetter == cmd.setter
    ensures cmd.SetLogger? ==> r.(logger := cfg.logger) == cfg && r.logger == cmd.logger
    ensures cmd.SetSanitizedFieldNames? ==>
              r.(sanitizedFieldNames := cfg.sanitizedFieldNames) == cfg && r.sanitizedFieldNames == cmd.patterns
    ensures cmd.RegisterGatherer? ==>
              r.(metricsGatherers := cfg.metricsGatherers) == cfg
              && |r.metricsGatherers| == |cfg.metricsGatherers| + 1
              && r.metricsGatherers[..|cfg.metricsGatherers|] == cfg.metricsGatherers
              && r.metricsGatherers[|cfg.metricsGatherers|] == cmd.id
    ensures cmd.DeregisterGatherer? ==>
              r.(metricsGatherers := cfg.metricsGatherers) == cfg && cmd.id !in r.metricsGatherers
              && (forall g :: g in cfg.metricsGatherers && g != cmd.id ==> g in r.metricsGatherers)
    ensures cmd.Initialise? ==>
              && r.metricsInterval == cmd.metricsInterval && r.requestDuration == cmd.requestDuration
              && r.requestSize == cmd.requestSize && r.metricsGatherers == [cmd.builtinGatherer]
              && r.sanitizedFieldNames == cmd.sanitizedFieldNames && r.disabledMetrics == cmd.disabledMetrics
              && r.preContext == 3 && r.postContext == 3
              && r.logger == (if cmd.defaultLogger.Some? then cmd.defaultLogger else cfg.logger)
              && r.contextSetter == cfg.contextSetter
    ensures !cmd.SetMetricsInterval? && !cmd.Initialise? ==> r.metricsInterval == cfg.metricsInterval
  {
    match cmd
    case Initialise(mi, rd, rs, sanitized, disabled, builtin, defaultLogger) =>
      cfg.(metricsInterval := mi, requestDuration := rd, requestSize := rs,
           sanitizedFieldNames := sanitized, disabledMetrics := disabled,
           preContext := DefaultPreContext, postContext := DefaultPostContext,
           metricsGatherers := [builtin],
           logger := if defaultLogger.Some? then defaultLogger else cfg.logger)
    case SetRequestDuration(d) => cfg.(requestDuration := d)
    case SetMetricsInterval(d) => cfg.(metricsInterval := d)
    case SetContextSetter(setter) => cfg.(contextSetter := setter)
    case SetLogger(logger) => cfg.(logger := logger)
    case SetSanitizedFieldNames(patterns) => cfg.(sanitizedFieldNames := patterns)
    case RegisterGatherer(id) => cfg.(metricsGatherers := cfg.metricsGatherers + [id])
    case DeregisterGatherer(id) => cfg.(metricsGatherers := Remove(cfg.metricsGatherers, id))
  }

  /** Registering a fresh gatherer and then deregistering it restores the
      list; other registrations keep their order throughout. */
  lemma RegisterThenDeregister(cfg: Config, id: GathererId)
    requires id !in cfg.metricsGatherers
    ensures Apply(Apply(cfg, RegisterGatherer(id)), DeregisterGatherer(id)) == cfg
  {
    RemoveAppendFresh(cfg.metricsGatherers, id);
  }

  /** Removing a freshly appended entry from any list leaves the list. */
  lemma {:induction false} RemoveAppendFresh(gs: seq<GathererId>, id: GathererId)
    requires id !in gs
    ensures Remove(gs + [id], id) == gs
    decreases |gs|
  {
    if gs == [] {
      assert [] + [id] == [id];
      assert [id][1..] == [];
    } else {
      assert (gs + [id])[1..] == gs[1..] + [id];
      RemoveAppendFresh(gs[1..], id);
      assert [gs[0]] + gs[1..] == gs;
    }
  }

  /** Registration with fresh identities and deregistration both keep the
      list free of duplicates. */
  lemma ApplyKeepsDistinct(cfg: Config, cmd: Command)
    requires Distinct(cfg.metricsGatherers)
    requires cmd.RegisterGatherer? ==> cmd.id !in cfg.metricsGatherers
    ensures Distinct(Apply(cfg, cmd).metricsGatherers)
  {
    if cmd.DeregisterGatherer? {
      RemoveKeepsDistinct(cfg.metricsGatherers, cmd.id);
    } else if cmd.RegisterGatherer? {
      var gs := cfg.metricsGatherers + [cmd.id];
      forall i, j | 0 <= i < j < |gs| ensures gs[i] != gs[j] {
        if j == |gs| - 1 {
          assert gs[i] == cfg.metricsGatherers[i];
        }
      }
    }
  }

  lemma {:induction false} RemoveKeepsDistinct(gs: seq<GathererId>, id: GathererId)
    requires Distinct(gs)
    ensures Distinct(Remove(gs, id))
    decreases |gs|
  {
    if gs != [] {
      assert Distinct(gs[1..]) by {
        forall a, b | 0 <= a < b < |gs[1..]| ensures gs[1..][a] != gs[1..][b] {
          assert gs[1..][a] == gs[a + 1] && gs[1..][b] == gs[b + 1];
        }
      }
      RemoveKeepsDistinct(gs[1..], id);
      if gs[0] != id {
        var rest := Remove(gs[1..], id);
        assert gs[0] !in gs[1..] by {
          forall j | 0 <= j < |gs[1..]| ensures gs[1..][j] != gs[0] {
            assert gs[1..][j] == gs[j + 1];
          }
        }
        assert gs[0] !in rest;
        var r := [gs[0]] + rest;
        forall i, j | 0 <= i < j < |r| ensures r[i] != r[j] {
          if i == 0 {
            assert r[j] == rest[j - 1];
          } else {
            assert r[i] == rest[i - 1] && r[j] == rest[j - 1];
          }
        }
      }
    }
  }
}

=== FILE: steplemmas.dfy ===
/** What one loop iteration promises, input by input, in states where the
    loop invariant holds. */
module StepLemmas {
  import opened Basics
  import opened RingBuffer
  import opened Counters
  import opened Settings
  import opened MetricsClock
  import opened LoopState
  import opened ModelWriter
  import opened Loop
  import opened LoopLemmas

  /** Once the tail has a request to work on: it is open afterwards, a
      request marked for closing has its compressor closed, a requested
      flush has happened (or the compressor is closed), and the request
      timer of an already open request is left alone. */
  lemma TailPhases(t: State, e: Effects, gather: bool)
    requires t.req.active || !(t.trace.IsEmpty() && t.metrics.IsEmpty())
    ensures var r := Tail(t, e, gather).state.req;
            && r.active
            && (t.req.closeRequest ==> r.closeRequest && r.zlibClosed)
            && (t.req.flushRequest ==> r.zlibFlushed || r.zlibClosed)
            && (t.req.active ==> r.timer == t.req.timer)
  {
    var o := StartGather(Out(FoldLocal(t), e), gather);
    var started := if !o.state.req.active then Open(o) else o;
    var d := DrainPhase(started.state);
    var c := CompressPhase(d);
    assert Tail(t, e, gather) == ReadPhase(Out(c, started.effects));
  }

  /** Accumulating onto `a` never lowers a counter. */
  lemma AccumulateGrows(a: Stats, b: Stats)
    ensures AtMost(a, Accumulate(a, b))
  {
  }

  /** A stopped loop does nothing; closing stops it. */
  lemma StepStopped(s: State, i: Input, nextGracePeriod: int -> int)
    ensures s.stopped ==> Step(s, i, nextGracePeriod) == Out(s, NoEffects)
    ensures i.Closing? ==> Step(s, i, nextGracePeriod).state.stopped
    ensures Step(s, i, nextGracePeriod).state.stopped <==> s.stopped || i.Closing?
  {
    var o := Step(s, i, nextGracePeriod);
    if !s.stopped {
      match i
      case Closing =>
      case ConfigCmd(cmd, now) =>
      case Ingest(e) => TailFrame(IngestArm(s, e), NoEffects, false);
      case RequestTimerFired => TailFrame(RequestTimerArm(s), NoEffects, false);
      case MetricsTimerFired => TailFrame(s.(clock := MetricsClock.Idle), NoEffects, !s.gathering);
      case ForceSendMetrics(w) => TailFrame(ForceSendMetricsArm(s, w), NoEffects, !s.gathering);
      case MetricsGathered(metricsets, now) => TailFrame(GatheredArm(s, metricsets, now), NoEffects, false);
      case ForceFlush(w, queued) =>
        match ForceFlushArm(s, w, queued) {
          case Continue(_) =>
          case ToTail(t, e) => TailFrame(t, e, false);
        }
      case ReadRequest(bufLen) => TailFrame(ReadArm(s, bufLen), NoEffects, false);
      case RequestResult(ok) =>
        var r := ResultArm(s, ok, nextGracePeriod);
        assert Step(s, i, nextGracePeriod) == Tail(r.state, r.effects, false);
        TailFrame(r.state, r.effects, false);
    }
  }

  /** A single request in flight: an iteration starts a send only when no
      request was open at its start or the open one reported its result in
      this very iteration, and a request is open afterwards exactly when
      the old one is still unanswered or a new one was started. */
  lemma StepInFlight(s: State, i: Input, nextGracePeriod: int -> int)
    requires Inv(s) && Enabled(s, i)
    ensures var o := Step(s, i, nextGracePeriod);
            && (o.effects.send.Some? ==> !s.req.active || i.RequestResult?)
            && (o.state.req.active <==> (s.req.active && !i.RequestResult?) || o.effects.send.Some?)
  {
    match i
    case Closing =>
    case ConfigCmd(cmd, now) =>
    case Ingest(e) => TailFrame(IngestArm(s, e), NoEffects, false);
    case RequestTimerFired => TailFrame(RequestTimerArm(s), NoEffects, false);
    case MetricsTimerFired => TailFrame(s.(clock := MetricsClock.Idle), NoEffects, !s.gathering);
    case ForceSendMetrics(w) => TailFrame(ForceSendMetricsArm(s, w), NoEffects, !s.gathering);
    case MetricsGathered(metricsets, now) => TailFrame(GatheredArm(s, metricsets, now), NoEffects, false);
    case ForceFlush(w, queued) =>
      match ForceFlushArm(s, w, queued) {
        case Continue(_) =>
        case ToTail(t, e) => TailFrame(t, e, false);
      }
    case ReadRequest(bufLen) => TailFrame(ReadArm(s, bufLen), NoEffects, false);
    case RequestResult(ok) =>
      var r := ResultArm(s, ok, nextGracePeriod);
      TailFrame(r.state, r.effects, false);
  }

  /** The outcome of a request, in the counters: on success the
      per-request counts become sent counters and the grace period is
      cleared; on failure one send error is counted and the grace period
      advances. */
  lemma StepResultStats(s: State, ok: bool, nextGracePeriod: int -> int)
    requires Inv(s) && s.req.active && !s.stopped
    ensures var o := OnResult(s, ok, nextGracePeriod);
            && o.state.stats == Accumulate(s.stats, Outcome(ok, s.req.counts))
            && o.state.gracePeriod == (if ok then -1 else nextGracePeriod(s.gracePeriod))
  {
    var r := ResultArm(s, ok, nextGracePeriod);
    ResultTail(s, r, Outcome(ok, s.req.counts));
  }

  /** Whatever the outcome, the flush waiter is acknowledged and released,
      and the metrics waiter too if the request carried a metricset. */
  lemma StepResultAcks(s: State, ok: bool, nextGracePeriod: int -> int)
    requires Inv(s) && s.req.active && !s.stopped
    ensures var o := OnResult(s, ok, nextGracePeriod);
            && o.effects.flushAck == s.flushWaiter && o.state.flushWaiter.None?
            && (if s.metricsWaiter.Some? && s.req.counts.metricsets > 0
                then o.effects.metricsAck == s.metricsWaiter && o.state.metricsWaiter.None?
                else o.effects.metricsAck.None? && o.state.metricsWaiter == s.metricsWaiter)
  {
    var r := ResultArm(s, ok, nextGracePeriod);
    TailFrame(r.state, r.effects, false);
    if s.metricsWaiter.Some? && s.req.counts.metricsets > 0 {
      assert r.effects.metricsAck == s.metricsWaiter && r.state.metricsWaiter.None?;
    } else {
      assert r.effects.metricsAck.None? && r.state.metricsWaiter == s.metricsWaiter;
    }
  }

  /** Whatever the outcome, every per-request field is reset, unless
      buffered data opens the next request at once, with the new grace
      period. */
  lemma StepResultNext(s: State, ok: bool, nextGracePeriod: int -> int)
    requires Inv(s) && s.req.active && !s.stopped
    ensures var o := OnResult(s, ok, nextGracePeriod);
            if s.trace.IsEmpty() && s.metrics.IsEmpty()
            then Reset(o.state.req) && !o.state.req.active && o.effects.send.None?
            else o.state.req.active && o.effects.send == Some(o.state.gracePeriod)
  {
    var r := ResultArm(s, ok, nextGracePeriod);
    TailFrame(r.state, r.effects, false);
    if s.trace.IsEmpty() && s.metrics.IsEmpty() {
      assert OnResult(s, ok, nextGracePeriod).state.req == r.state.req;
    }
  }

  /** The tail after the result arm folds nothing new and keeps the
      arm's grace period. */
  lemma ResultTail(s: State, r: Out, x: Stats)
    requires s.local == Zero
    requires r.state.local == Zero && r.state.stats == Accumulate(s.stats, Accumulate(s.local, x))
    ensures var o := Tail(r.state, r.effects, false);
            o.state.stats == Accumulate(s.stats, x) && o.state.gracePeriod == r.state.gracePeriod
  {
    TailFrame(r.state, r.effects, false);
    FoldedResult(s.stats, s.local, x, r.state.stats);
  }

  /** The counters after a result and the tail's fold, with nothing left
      over from the arm. */
  lemma FoldedResult(stats: Stats, local: Stats, x: Stats, after: Stats)
    requires local == Zero && after == Accumulate(stats, Accumulate(local, x))
    ensures Accumulate(after, Zero) == Accumulate(stats, x)
  {
    CountersDetermineStats(Accumulate(local, x), x);
    AccumulateZero(after);
  }

  /** `Flush`: with no request open and nothing buffered once the queued
      events are written, the caller is acknowledged at once and nothing
      else happens; otherwise it waits, and a request is open and marked
      for closing with its compressor closed (a newly opened one started
      with the current grace period). */
  lemma StepForceFlush(s: State, w: WaiterId, queued: seq<Event>, nextGracePeriod: int -> int)
    requires Inv(s) && !s.stopped
    ensures var o := Step(s, ForceFlush(w, queued), nextGracePeriod);
            var q := WriteEvents(s, queued);
            if !s.req.active && q.trace.IsEmpty() && q.metrics.IsEmpty()
            then o.effects == NoEffects.(flushAck := Some(w)) && o.state.flushWaiter.None? && o.state.req == s.req
            else && o.effects.flushAck.None? && o.state.flushWaiter == Some(w)
                 && o.state.req.active && o.state.req.closeRequest && o.state.req.zlibClosed
                 && (!s.req.active ==> o.effects.send == Some(s.gracePeriod))
  {
    match ForceFlushArm(s, w, queued) {
      case Continue(_) =>
      case ToTail(t, e) =>
        TailFrame(t, e, false);
        TailPhases(t, e, false);
    }
  }

  /** The request timer fires: the open request is closed, its compressor
      closed, and the timer stays stopped. */
  lemma StepRequestTimer(s: State, nextGracePeriod: int -> int)
    requires Inv(s) && Enabled(s, RequestTimerFired)
    ensures var r := Step(s, RequestTimerFired, nextGracePeriod).state.req;
            r.active && r.closeRequest && r.zlibClosed && r.timer == Stopped
  {
    TailPhases(RequestTimerArm(s), NoEffects, false);
  }

  /** An event from the instrumentation: it is either refused (larger than
      the whole buffer), or the `k` oldest buffered blocks are evicted to
      make room and it becomes the newest block; each evicted block counts
      as dropped in its category and no other counter moves. */
  lemma StepIngest(s: State, e: Event, nextGracePeriod: int -> int)
    requires Inv(s) && !s.stopped
    ensures var o := Step(s, Ingest(e), nextGracePeriod);
            var w := IngestArm(s, e);
            var k := |s.trace.blocks| + 1 - |w.trace.blocks|;
            var refused := Footprint(BlockOf(e), s.trace.headerSize) > s.trace.capacity;
            && (refused ==> w.trace == s.trace && o.state.stats == s.stats)
            && (!refused ==>
                  && 0 <= k <= |s.trace.blocks|
                  && w.trace.blocks == s.trace.blocks[k..] + [BlockOf(e)]
                  && (forall t :: Counted(t) ==> Dropped(o.state.stats, t) == Dropped(s.stats, t) + CountTag(s.trace.blocks[..k], t))
                  && (forall t :: Sent(o.state.stats, t) == Sent(s.stats, t))
                  && o.state.stats.sendStreamErrors == s.stats.sendStreamErrors)
  {
    var w := IngestArm(s, e);
    TailFrame(w, NoEffects, false);
    if Footprint(BlockOf(e), s.trace.headerSize) > s.trace.capacity {
      AccumulateZero(s.stats);
    }
  }

  /** An error event reaches the transport promptly: afterwards the open
      request's compressor has been flushed or closed. */
  lemma StepIngestError(s: State, e: Event, nextGracePeriod: int -> int)
    requires Inv(s) && !s.stopped && e.kind == ErrorEvent
    ensures var r := Step(s, Ingest(e), nextGracePeriod).state.req;
            r.active ==> r.zlibFlushed || r.zlibClosed
  {
    var w := IngestArm(s, e);
    TailFrame(w, NoEffects, false);
    if w.req.active || !(w.trace.IsEmpty() && w.metrics.IsEmpty()) {
      TailPhases(w, NoEffects, false);
    }
  }

  /** Shared counters only grow. */
  lemma StepStatsGrow(s: State, i: Input, nextGracePeriod: int -> int)
    requires Inv(s) && Enabled(s, i)
    ensures AtMost(s.stats, Step(s, i, nextGracePeriod).state.stats)
  {
    match i
    case Closing =>
    case ConfigCmd(cmd, now) =>
    case Ingest(e) =>
      var t := IngestArm(s, e);
      TailFrame(t, NoEffects, false);
      AccumulateGrows(s.stats, t.local);
    case RequestTimerFired =>
      TailFrame(RequestTimerArm(s), NoEffects, false);
      AccumulateGrows(s.stats, s.local);
    case MetricsTimerFired =>
      TailFrame(s.(clock := MetricsClock.Idle), NoEffects, !s.gathering);
      AccumulateGrows(s.stats, s.local);
    case ForceSendMetrics(w) =>
      TailFrame(ForceSendMetricsArm(s, w), NoEffects, !s.gathering);
      AccumulateGrows(s.stats, s.local);
    case MetricsGathered(metricsets, now) =>
      TailFrame(GatheredArm(s, metricsets, now), NoEffects, false);
      AccumulateGrows(s.stats, s.local);
    case ForceFlush(w, queued) =>
      match ForceFlushArm(s, w, queued) {
        case Continue(_) =>
        case ToTail(t, e) =>
          TailFrame(t, e, false);
          AccumulateGrows(s.stats, t.local);
      }
    case ReadRequest(bufLen) =>
      TailFrame(ReadArm(s, bufLen), NoEffects, false);
      AccumulateGrows(s.stats, s.local);
    case RequestResult(ok) =>
      var r := ResultArm(s, ok, nextGracePeriod);
      assert Step(s, i, nextGracePeriod) == Tail(r.state, r.effects, false);
      TailFrame(r.state, r.effects, false);
      AccumulateGrows(s.stats, Accumulate(s.local, Outcome(ok, s.req.counts)));
      AccumulateGrows(r.state.stats, r.state.local);
  }

  /** Gathering rounds never overlap: a round starts only when none is
      running, only on the metrics timer or a `SendMetrics` call, and runs
      the configured gatherers with the configured exclusions. */
  lemma StepGather(s: State, i: Input, nextGracePeriod: int -> int)
    requires Inv(s) && Enabled(s, i)
    ensures var o := Step(s, i, nextGracePeriod);
            o.effects.gather.Some? ==>
              && !s.gathering && o.state.gathering
              && (i.MetricsTimerFired? || i.ForceSendMetrics?)
              && o.effects.gather == Some(GatherRequest(s.cfg.metricsGatherers, s.cfg.disabledMetrics))
  {
    match i
    case Closing =>
    case ConfigCmd(cmd, now) =>
    case Ingest(e) => TailFrame(IngestArm(s, e), NoEffects, false);
    case RequestTimerFired => TailFrame(RequestTimerArm(s), NoEffects, false);
    case MetricsTimerFired => TailFrame(s.(clock := MetricsClock.Idle), NoEffects, !s.gathering);
    case ForceSendMetrics(w) => TailFrame(ForceSendMetricsArm(s, w), NoEffects, !s.gathering);
    case MetricsGathered(metricsets, now) => TailFrame(GatheredArm(s, metricsets, now), NoEffects, false);
    case ForceFlush(w, queued) =>
      match ForceFlushArm(s, w, queued) {
        case Continue(_) =>
        case ToTail(t, e) => TailFrame(t, e, false);
      }
    case ReadRequest(bufLen) => TailFrame(ReadArm(s, bufLen), NoEffects, false);
    case RequestResult(ok) =>
      var r := ResultArm(s, ok, nextGracePeriod);
      assert Step(s, i, nextGracePeriod) == Tail(r.state, r.effects, false);
      TailFrame(r.state, r.effects, false);
  }

  /** `SendMetrics`: the caller becomes the metrics waiter, the metrics
      timer is stopped, and a gathering round is running afterwards. */
  lemma StepForceSendMetrics(s: State, w: WaiterId, nextGracePeriod: int -> int)
    requires Inv(s) && !s.stopped
    ensures var o := Step(s, ForceSendMetrics(w), nextGracePeriod);
            && o.state.metricsWaiter == Some(w)
            && o.state.clock == MetricsClock.Idle
            && o.state.gathering
            && (o.effects.gather.Some? <==> !s.gathering)
  {
    TailFrame(ForceSendMetricsArm(s, w), NoEffects, !s.gathering);
  }

  /** A `Flush` caller is acknowledged only by its own call (answered at
      once) or by a request result, and an acknowledged caller is never
      still recorded as the flush waiter afterwards. */
  lemma StepFlushAck(s: State, i: Input, nextGracePeriod: int -> int)
    requires Inv(s) && Enabled(s, i)
    ensures var o := Step(s, i, nextGracePeriod);
            o.effects.flushAck.Some? ==>
              && o.state.flushWaiter.None?
              && (i.ForceFlush? || i.RequestResult?)
              && (i.ForceFlush? ==> o.effects.flushAck == Some(i.flusher))
              && (i.RequestResult? ==> o.effects.flushAck == s.flushWaiter)
  {
    match i
    case Closing =>
    case ConfigCmd(cmd, now) =>
    case Ingest(e) => TailFrame(IngestArm(s, e), NoEffects, false);
    case RequestTimerFired => TailFrame(RequestTimerArm(s), NoEffects, false);
    case MetricsTimerFired => TailFrame(s.(clock := MetricsClock.Idle), NoEffects, !s.gathering);
    case ForceSendMetrics(w) => TailFrame(ForceSendMetricsArm(s, w), NoEffects, !s.gathering);
    case MetricsGathered(metricsets, now) => TailFrame(GatheredArm(s, metricsets, now), NoEffects, false);
    case ForceFlush(w, queued) =>
      match ForceFlushArm(s, w, queued) {
        case Continue(_) =>
        case ToTail(t, e) => TailFrame(t, e, false);
      }
    case ReadRequest(bufLen) => TailFrame(ReadArm(s, bufLen), NoEffects, false);
    case RequestResult(ok) =>
      var r := ResultArm(s, ok, nextGracePeriod);
      TailFrame(r.state, r.effects, false);
  }
}

=== FILE: traces.dfy ===
/** Runs of the loop over a sequence of inputs, and what holds along them. */
module Traces {
  import opened LoopState
  import opened Loop
  import opened LoopLemmas
  import opened StepLemmas

  /** The state after feeding `inputs` to the loop one by one. */
  function Final(s: State, inputs: seq<Input>, nextGracePeriod: int -> int): State
    decreases |inputs|
  {
    if inputs == [] then s else Final(Step(s, inputs[0], nextGracePeriod).state, inputs[1..], nextGracePeriod)
  }

  /** Every input is one the environment can deliver in the state it meets. */
  predicate Feasible(s: State, inputs: seq<Input>, nextGracePeriod: int -> int)
    decreases |inputs|
  {
    inputs == [] || (Enabled(s, inputs[0]) && Feasible(Step(s, inputs[0], nextGracePeriod).state, inputs[1..], nextGracePeriod))
  }

  /** How many sends the run started. */
  function Sends(s: State, inputs: seq<Input>, nextGracePeriod: int -> int): nat
    decreases |inputs|
  {
    if inputs == [] then 0
    else
      var o := Step(s, inputs[0], nextGracePeriod);
      (if o.effects.send.Some? then 1 else 0) + Sends(o.state, inputs[1..], nextGracePeriod)
  }

  /** How many request results the run delivered. */
  function Results(inputs: seq<Input>): nat {
    if inputs == [] then 0 else (if inputs[0].RequestResult? then 1 else 0) + Results(inputs[1..])
  }

  /** Requests sent and not yet answered in `s`. */
  function InFlight(s: State): nat {
    if s.req.active then 1 else 0
  }

  /** A feasible run keeps the loop invariant. */
  lemma {:induction false} RunInv(s: State, inputs: seq<Input>, nextGracePeriod: int -> int)
    requires Inv(s) && Feasible(s, inputs, nextGracePeriod)
    ensures Inv(Final(s, inputs, nextGracePeriod))
    decreases |inputs|
  {
    if inputs != [] {
      StepInv(s, inputs[0], nextGracePeriod);
      RunInv(Step(s, inputs[0], nextGracePeriod).state, inputs[1..], nextGracePeriod);
    }
  }

  /** A single request in flight: along any feasible run, every send but
      the one still open has had its result, so the sends started never
      exceed the results delivered by more than one. */
  lemma {:induction false} SingleInFlight(s: State, inputs: seq<Input>, nextGracePeriod: int -> int)
    requires Inv(s) && Feasible(s, inputs, nextGracePeriod)
    ensures InFlight(s) + Sends(s, inputs, nextGracePeriod) == Results(inputs) + InFlight(Final(s, inputs, nextGracePeriod))
    decreases |inputs|
  {
    if inputs != [] {
      var o := Step(s, inputs[0], nextGracePeriod);
      StepInv(s, inputs[0], nextGracePeriod);
      StepInFlight(s, inputs[0], nextGracePeriod);
      assert InFlight(o.state) == InFlight(s) - (if inputs[0].RequestResult? then 1 else 0) + (if o.effects.send.Some? then 1 else 0);
      SingleInFlight(o.state, inputs[1..], nextGracePeriod);
    }
  }

  /** From the initial state, sends never run ahead of results by more
      than one. */
  lemma FromInitial(bufferSize: int, metricsBufferSize: int, headerSize: nat, metadataLen: nat,
                    inputs: seq<Input>, nextGracePeriod: int -> int)
    requires Feasible(Initial(bufferSize, metricsBufferSize, headerSize, metadataLen), inputs, nextGracePeriod)
    ensures var s := Initial(bufferSize, metricsBufferSize, headerSize, metadataLen);
            && Inv(Final(s, inputs, nextGracePeriod))
            && Results(inputs) <= Sends(s, inputs, nextGracePeriod) <= Results(inputs) + 1
  {
    var s := Initial(bufferSize, metricsBufferSize, headerSize, metadataLen);
    RunInv(s, inputs, nextGracePeriod);
    SingleInFlight(s, inputs, nextGracePeriod);
  }
}

=== FILE: writer.dfy ===
/** The model writer: each finished record becomes one tagged block in the
    trace buffer, each gathered metricset one block in the metrics buffer.
    Only the trace buffer reports evictions to the counters. */
module ModelWriter {
  import opened RingBuffer
  import opened Counters
  import opened LoopState

  function BlockOf(e: Event): Block {
    Block(TagOf(e.kind), e.size)
  }

  /** Writes one record into the trace buffer. Either the block is refused
      (larger than the buffer) and nothing changes, or the `k` oldest blocks
      are evicted, each counted as dropped in its category, and the new
      block becomes the newest. */
  function WriteEvent(s: State, e: Event): (r: State)
    ensures r.(trace := s.trace, local := s.local) == s
    ensures r.trace.capacity == s.trace.capacity && r.trace.headerSize == s.trace.headerSize
    ensures WithinCapacity(s.trace) ==> WithinCapacity(r.trace)
    ensures Footprint(BlockOf(e), s.trace.headerSize) > s.trace.capacity ==> r.trace == s.trace && r.local == s.local
    ensures var k := |s.trace.blocks| + 1 - |r.trace.blocks|;
            Footprint(BlockOf(e), s.trace.headerSize) <= s.trace.capacity ==>
               (&& 0 <= k <= |s.trace.blocks|
                && r.trace.blocks == s.trace.blocks[k..] + [BlockOf(e)]
                && (forall t :: Counted(t) ==> Dropped(r.local, t) == Dropped(s.local, t) + CountTag(s.trace.blocks[..k], t))
                && (forall t :: Sent(r.local, t) == Sent(s.local, t))
                && r.local.sendStreamErrors == s.local.sendStreamErrors)
    ensures r.trace.IsEmpty() ==> r.local == s.local
    ensures !s.trace.IsEmpty() ==> !r.trace.IsEmpty()
  {
    var o := Insert(s.trace, BlockOf(e));
    EvictedAllCounts(s.local, o.evicted);
    s.(trace := o.ring, local := EvictedAll(s.local, o.evicted))
  }

  /** Writes records in arrival order. */
  function WriteEvents(s: State, es: seq<Event>): (r: State)
    ensures r.(trace := s.trace, local := s.local) == s
    ensures r.trace.capacity == s.trace.capacity && r.trace.headerSize == s.trace.headerSize
    ensures WithinCapacity(s.trace) ==> WithinCapacity(r.trace)
    ensures !s.trace.IsEmpty() ==> !r.trace.IsEmpty()
    ensures r.trace.IsEmpty() ==> r.local == s.local
    decreases |es|
  {
    if es == [] then s else WriteEvents(WriteEvent(s, es[0]), es[1..])
  }

  /** Writes the gathered metricsets into the metrics buffer; evictions
      there are not counted anywhere. */
  function WriteMetrics(s: State, sizes: seq<nat>): (r: State)
    ensures r.(metrics := s.metrics) == s
    ensures r.metrics.capacity == s.metrics.capacity && r.metrics.headerSize == s.metrics.headerSize
    ensures WithinCapacity(s.metrics) ==> WithinCapacity(r.metrics)
    ensures (forall b :: b in s.metrics.blocks ==> b.tag == MetricsetTag) ==>
              forall b :: b in r.metrics.blocks ==> b.tag == MetricsetTag
    decreases |sizes|
  {
    if sizes == [] then s
    else
      var o := Insert(s.metrics, Block(MetricsetTag, sizes[0]));
      WriteMetrics(s.(metrics := o.ring), sizes[1..])
  }
  /** The metricset blocks, in order, of the gathered sizes whose blocks fit
      into a buffer of `capacity` bytes at all. */
  function Fitting(sizes: seq<nat>, headerSize: nat, capacity: int): seq<Block>
    decreases |sizes|
  {
    if sizes == [] then []
    else
      var b := Block(MetricsetTag, sizes[0]);
      (if Footprint(b, headerSize) <= capacity then [b] else []) + Fitting(sizes[1..], headerSize, capacity)
  }

  /** `a` is what remains of `b` after dropping some of its oldest entries. */
  predicate IsSuffix(a: seq<Block>, b: seq<Block>) {
    |a| <= |b| && a == b[|b| - |a|..]
  }

  lemma SuffixTrans(a: seq<Block>, b: seq<Block>, c: seq<Block>)
    requires IsSuffix(a, b) && IsSuffix(b, c)
    ensures IsSuffix(a, c)
  {
    assert c[|c| - |b|..][|b| - |a|..] == c[|c| - |a|..];
  }

  lemma SuffixDrop(x: seq<Block>, k: nat, y: seq<Block>)
    requires k <= |x|
    ensures IsSuffix(x[k..] + y, x + y)
  {
    assert (x + y)[k..] == x[k..] + y;
  }

  /** Gathered metricsets go into the metrics buffer in order: afterwards it
      holds the newest part of the old blocks followed by the metricsets
      that fit, with only the oldest ones evicted. */
  lemma {:induction false} WriteMetricsSuffix(s: State, sizes: seq<nat>)
    ensures IsSuffix(WriteMetrics(s, sizes).metrics.blocks,
                     s.metrics.blocks + Fitting(sizes, s.metrics.headerSize, s.metrics.capacity))
    decreases |sizes|
  {
    if sizes == [] {
      assert s.metrics.blocks + [] == s.metrics.blocks;
    } else {
      var h := s.metrics.headerSize;
      var cap := s.metrics.capacity;
      var o := Insert(s.metrics, Block(MetricsetTag, sizes[0]));
      var s' := s.(metrics := o.ring);
      assert WriteMetrics(s, sizes) == WriteMetrics(s', sizes[1..]);
      WriteMetricsSuffix(s', sizes[1..]);
      InsertSuffix(s.metrics, sizes[0], Fitting(sizes[1..], h, cap));
      SuffixTrans(WriteMetrics(s', sizes[1..]).metrics.blocks, o.ring.blocks + Fitting(sizes[1..], h, cap),
                  s.metrics.blocks + Fitting(sizes, h, cap));
    }
  }

  /** One insertion, followed by the same blocks `rest`, keeps a suffix of
      the old blocks, the new one if it fits, and `rest`. */
  lemma InsertSuffix(r: Ring, size: nat, rest: seq<Block>)
    ensures var b := Block(MetricsetTag, size);
            IsSuffix(Insert(r, b).ring.blocks + rest,
                     r.blocks + ((if Footprint(b, r.headerSize) <= r.capacity then [b] else []) + rest))
  {
    var b := Block(MetricsetTag, size);
    var o := Insert(r, b);
    if o.stored {
      var k := |o.evicted|;
      assert o.ring.blocks + rest == r.blocks[k..] + ([b] + rest);
      SuffixDrop(r.blocks, k, [b] + rest);
    } else {
      assert [] + rest == rest;
    }
  }

  /** A last metricset that fits ends up as the newest block. */
  lemma {:induction false} WriteMetricsNewest(s: State, sizes: seq<nat>)
    requires sizes != []
    requires Footprint(Block(MetricsetTag, sizes[|sizes| - 1]), s.metrics.headerSize) <= s.metrics.capacity
    ensures var r := WriteMetrics(s, sizes).metrics;
            !r.IsEmpty() && r.blocks[|r.blocks| - 1] == Block(MetricsetTag, sizes[|sizes| - 1])
    decreases |sizes|
  {
    var o := Insert(s.metrics, Block(MetricsetTag, sizes[0]));
    var s' := s.(metrics := o.ring);
    assert WriteMetrics(s, sizes) == WriteMetrics(s', sizes[1..]);
    if |sizes| > 1 {
      WriteMetricsNewest(s', sizes[1..]);
    } else {
      assert WriteMetrics(s', sizes[1..]) == s';
    }
  }
}
